=== FILE: README.md ===
# parsergo declaration extractor, import aliaser and string set, in Dafny

This project models the core of `parsergo`, a Go library that turns the
syntax trees of a Go package into a tree of plain records. The records are
an `AstSpec` per package, a `PackageSpec` per file, and `StructSpec`s with
their fields, tags, methods and `@`-annotations. The model covers three
pieces.

- **The extractor** (`parser/impl.go`) works over an abstract Go syntax
  tree that keeps only the shapes the code switches on. `Parse` keeps the
  files that have comments and yield a struct. `ParseStructs` keeps every
  struct type whose declaration group has a doc comment. `parserStruct`,
  `handleFieldType` and `handleFieldTag` build its fields. `ParseMethods`,
  `handleParams` and `handleResults` attach methods by receiver name.
  `ParseAnnotations` reads the `@` lines of the struct's doc comment. The
  siblings `ParseFuncs` and `ParseInterfaces` are modelled as well.
- **The import aliaser** (`parser/imports.go`, `NeedImport`) keeps a pair of
  maps, path to alias and alias to path. It strips vendor prefixes,
  derives an alias from the last path segment, walks up the path on a
  collision, and registers the pair both ways.
- **The string set** (`sets/strings.go`) is modelled on `set<string>`;
  `sets.StringMap` is modelled as `map<string, string>`.

Modules, one per file:

| file | module | contents |
|---|---|---|
| goast.dfy | GoAst | the abstract input tree: `Expr`, `Field`, `Spec`, `Decl`, `File`, `Astx`, `LoadedPackage` |
| astxspec.dfy | AstxSpec | the output records of `astx/spec.go`, plus the fields the extractor writes (`Annotation.alias`, `Annotation.anno`, `ReturnSpec.ptr`) |
| strings.dfy | Strings | `strings.LastIndex`, `strings.Split` on one character (with `Join` as its inverse), `path.Split`, digit dropping and `strings.Map` sanitizing |
| typeresolver.dfy | TypeResolver | the three type switches (field, parameter, result) and the canonical shapes they round-trip |
| tagdecoder.dfy | TagDecoder | tag decoding and a conventional tag encoder it inverts |
| annotations.dfy | Annotations | the annotation pass over doc lines; the regular-expression extraction is a parameter |
| extractor.dfy | Extractor | `ParseStructs`, `ParseMethods`, `ParseAnnotations`, `Parse`, `ParseFuncs`, `ParseInterfaces` and their reference definitions |
| importaliaser.dfy | ImportAliaser | `NeedImport` as a function from state and path to new state and alias |
| stringsets.dfy | StringSets | `NewString`, `Insert`, `Has` |
| fixture.dfy | Fixture | the package `tests/structx` as an input, traced end to end by lemmas |

A Go panic becomes a precondition. The panics modelled this way are:
`field.Names[0]` on an embedded field, tag indexing on a malformed tag, and
`comment[3:]` on a short doc line in the as-written annotation loop (the
extractor itself uses the corrected pass, which skips such lines). A nil
pointer becomes `None` and a nil slice becomes the empty sequence. The
pointer-mutating passes (`ParseMethods`, `ParseAnnotations`, `NeedImport`)
become functions that return the updated value.

## Model

| member | source | states |
|---|---|---|
| Strings.LastIndex | parser/imports.go:51 | the result is -1 or the start of an occurrence, and no occurrence starts after it |
| Strings.JoinSplit | parser/impl.go:294-296 | joining the pieces of a split with the separator gives back the text |
| Strings.SplitJoin | parser/impl.go:294-296 | splitting a join of separator-free pieces gives back the pieces |
| Strings.PathSplit | parser/imports.go:58 | the directory and file concatenate to the path, the file has no `/`, and the directory is empty or ends in `/` |
| Strings.Split | parser/impl.go:294-296 | at least one piece, and no piece holds the separator |
| Strings.DropLeadingDigits | parser/imports.go:63-65 | the result is a suffix, everything dropped is a digit, and the result does not start with a digit |
| Strings.Sanitize | parser/imports.go:66-71 | same length; letters, digits and `_` are kept in place and every other character becomes `_` |
| TypeResolver.FieldType | parser/impl.go:260-284 | the four supported shapes give their canonical text; the pointer flag is set exactly for a pointer; a selector on a base that is not an identifier gives the bare selected name, and a pointer to one gives `*` and that name; every other shape gives empty text |
| TypeResolver.ParamType | parser/impl.go:358-381 | as for fields, except that a pointer to an identifier gives the bare name with the pointer flag set |
| TypeResolver.ReturnType | parser/impl.go:324-339 | as for fields, except that a plain qualified name gives empty text and no pointer |
| TypeResolver.FieldTypeRoundTrip | parser/impl.go:260-284 | on the supported shapes the resolved text reads back to the same shape and the flag says pointer |
| TypeResolver.CanonicalExamples | parser/impl.go:262-282 | `int`, `*int`, `time.Time` and `*time.Time` resolve to those texts, with the flag exactly for the two pointers |
| TypeResolver.CornerExamples | parser/impl.go:262-282 | a selector whose base is not an identifier (here a pointer expression) gives `T`; a pointer to an unsupported shape gives empty text with the flag; `*int` as a parameter gives `int`; `time.Time` as a result gives empty text |
| TagDecoder.DecodeTag | parser/impl.go:286-309 | one tag per space-separated token, in order; each carries the whole literal as its name, the text before the first colon as its key, and as its value the second colon piece with its first and last characters removed |
| TagDecoder.DecodeEncode | parser/impl.go:286-309 | decoding a conventionally written tag gives back its key/value pairs, in order |
| TagDecoder.JsonXmlExample | parser/impl.go:288-289 | `` `json:"name" xml:"n"` `` decodes to (json, name), (xml, n) |
| TagDecoder.ColonInValueTruncates | parser/impl.go:296-298 | a value holding a colon is cut there: `url:"a:b"` gives the empty value |
| Annotations.AnnotationFor | parser/impl.go:203-214 | an annotation line gives one annotation with the struct's package and alias and the whole line; the name comes from the text after the leader; values are filled only when that text holds both `(` and `)` |
| Annotations.AnnotationLines | parser/impl.go:199-204 | a line is kept exactly when it is in the comment and its text after the three-character leader starts with `@`; never more lines than the comment has |
| Annotations.AnnotationLinesAppend | parser/impl.go:199-217 | the lines of two comment runs are the lines of the first followed by those of the second: comment order is kept, duplicates included |
| Annotations.AnnotationLinesOne | parser/impl.go:199-204 | one line gives itself when it is an annotation line and nothing otherwise |
| Annotations.AnnotationsOf | parser/impl.go:196-220 | one annotation per annotation line, in comment order, duplicates kept; short lines are skipped |
| Annotations.AnnotationsAsWritten | parser/impl.go:199-217 | the loop as written, defined only when every line has at least three characters |
| Annotations.AsWrittenAgrees | parser/impl.go:199-217 | wherever the loop as written does not panic, it agrees with the corrected pass |
| Annotations.EmptyDocLine | parser/impl.go:203 | a doc comment with a bare `//` line is outside the as-written domain, while the corrected pass reads its annotation |
| Annotations.FixtureValues | pkg/regexpx/regexpx_test.go:28-44 | for the two fixture annotations, values are the quoted string and the verbatim JSON text, given an extraction that agrees with those tests |
| Extractor.ParserStruct | parser/impl.go:222-258 | the struct spec carries the file's package and alias, the type's name and the group's doc lines, its fields are exactly those of the field list in order (one per entry, named by its first name, with resolved type and decoded tag), and no methods or annotations |
| Extractor.FieldsOf | parser/impl.go:240-255 | one field spec per field-list entry, in order, named by its first name, with the struct's name, the field-type resolution, and one tag spec exactly when the entry has a tag |
| Extractor.StructSelection | parser/impl.go:55-75 | the structs kept are exactly the struct types whose group has a doc comment, in declaration order, each built from the group's doc lines |
| Extractor.SpecSelection | parser/impl.go:61-73 | within one group, struct selection is the documented candidates, built in order |
| Extractor.StructsFresh | parser/impl.go:230-238 | newly found structs have no methods and no annotations |
| Extractor.GroupParams | parser/impl.go:350-384 | a parameter group gives one parameter per name, in order, all with the group's resolved type and flag |
| Extractor.ParamsOf | parser/impl.go:346-387 | the parameter count is the number of names over all groups; unnamed parameters give none |
| Extractor.ParamsAppend | parser/impl.go:349-385 | parameter lists concatenate group by group |
| Extractor.ParamsOfOne | parser/impl.go:349-385 | a single group gives exactly that group's parameters, one per name with the group's resolved type; with ParamsAppend this fixes every list's content and order |
| Extractor.ReturnsOf | parser/impl.go:311-344 | one result spec per result entry, not per name, named by its first name or empty, typed by the result switch |
| Extractor.ReceiverBase | parser/impl.go:135-148 | the struct name a receiver designates is `T` for `T` and `*T`, and empty for anything else |
| Extractor.ReceiverMatch | parser/impl.go:135-150 | a receiver matches a non-empty struct name exactly when it is that name or a pointer to it |
| Extractor.AttachField | parser/impl.go:132-164 | one receiver field appends the method to every struct of that name and leaves the others alone |
| Extractor.AttachRecv | parser/impl.go:129-166 | a receiver list appends to each struct exactly the reference methods for its name |
| Extractor.AttachDecl | parser/impl.go:120-168 | a declaration appends its reference methods; declarations without a receiver change nothing |
| Extractor.ParseMethods | parser/impl.go:119-170 | each struct of the package spec gets, appended to its methods, the file's methods whose receiver names it, in declaration order; nothing else changes |
| Extractor.AttachAll | parser/impl.go:119-170 | every struct ends with its old methods followed by all of the file's methods whose receiver names it, in declaration order; nothing else changes |
| Extractor.ParseAnnotations | parser/impl.go:196-220 | each struct gets its doc comment's annotations appended; the rest of the package spec is unchanged |
| Extractor.ParseStructs | parser/impl.go:55-82 | the package spec of a file holds the selected structs, each with its methods and its annotations, and no interfaces or functions |
| Extractor.KeptPackages | parser/impl.go:33-45 | every kept package spec comes from a file with comments and holds at least one struct; there are no more specs than files |
| Extractor.KeptWhenNonEmpty | parser/impl.go:35-44 | every file with comments that yields a struct is kept |
| Extractor.KeptHead | parser/impl.go:33-45 | one iteration of the file loop: the first file adds its package spec when it has comments and yields a struct, and nothing otherwise, before what the remaining files give |
| Extractor.KeptPackagesAppend | parser/impl.go:33-45 | file order is kept: the result for two runs of files is the first result followed by the second |
| Extractor.UndocumentedFileDropped | parser/impl.go:39-42 | a file without documented struct types contributes nothing |
| Extractor.Parse | parser/impl.go:31-53 | the result carries the package's identity, and its package specs are exactly those of the files kept by the loop, in file order, each holding structs |
| Extractor.FuncsOf | parser/impl.go:172-194 | every receiver-less function gives a spec with its name and doc lines and no parameters or results, and every spec comes from one |
| Extractor.FuncsOfOne | parser/impl.go:176-192 | one declaration gives its spec exactly when it is a function without a receiver |
| Extractor.FuncsOfAppend | parser/impl.go:172-194 | the functions of two declaration runs are those of the first followed by those of the second, so declaration order is kept |
| Extractor.ParseFuncs | parser/impl.go:172-194 | the file's functions are appended after the existing ones; structs, interfaces, package and alias are unchanged |
| Extractor.SpecInterfaces | parser/impl.go:88-114 | in a documented group every interface type gives a spec with the group's doc lines and no methods, and every spec comes from one; none for an undocumented group |
| Extractor.SpecInterfacesAppend | parser/impl.go:95-113 | within one group, the interfaces of two spec runs are those of the first followed by those of the second |
| Extractor.SpecInterfacesOne | parser/impl.go:89-111 | one spec gives one interface spec exactly when the group is documented and the spec is an interface type, and none otherwise; with SpecInterfacesAppend this fixes multiplicity and order |
| Extractor.InterfacesOf | parser/impl.go:84-117 | every interface type of a documented group gives a spec with that group's doc lines, and every spec comes from one |
| Extractor.InterfacesOfAppend | parser/impl.go:84-117 | the interfaces of two declaration runs are those of the first followed by those of the second, so declaration order is kept |
| Extractor.InterfacesOfOne | parser/impl.go:85-115 | one declaration contributes the interfaces of its spec group when it is a general declaration, and nothing otherwise |
| Extractor.ParseInterfaces | parser/impl.go:84-117 | the file's interfaces are appended after the existing ones; structs, functions, package and alias are unchanged |
| ImportAliaser.StripVendor | parser/imports.go:51-53 | the key is the path itself when it holds no `/vendor/`; otherwise it is what follows the last `/vendor/`, and holds none itself |
| ImportAliaser.Word | parser/imports.go:63-71 | a path segment becomes alias text no longer than the segment |
| ImportAliaser.WordShape | parser/imports.go:63-71 | exactly the run of leading digits is dropped, and every remaining character is kept when it is a letter, digit or `_` and becomes `_` otherwise |
| ImportAliaser.Walk | parser/imports.go:59-77 | the walk terminates with alias text that is free or already bound to the same path |
| ImportAliaser.WalkStops | parser/imports.go:59-73 | a step whose candidate (the segment's word before the alias so far, grown by `x` once the segments are used up) is free or bound to the same path ends the walk with that candidate |
| ImportAliaser.WalkContinues | parser/imports.go:59-77 | a step whose candidate belongs to another path goes on from that candidate, with the parent segment while segments remain |
| ImportAliaser.WalkUp | parser/imports.go:73-76 | with a taken candidate and a directory part `dir + segment + "/"`, the walk goes on from `segment` and `dir` |
| ImportAliaser.NeedImport | parser/imports.go:50-83 | with the corrected walk (the loop runs at least once): a bound path returns its alias and changes nothing; a new path gets an alias no other path holds, and exactly that pair is added both ways; inverse maps stay inverse, and aliases stay alias text |
| ImportAliaser.NeedImportIdempotent | parser/imports.go:54-57 | asking again for the same path changes nothing and returns the same alias |
| ImportAliaser.DistinctPathsDistinctAliases | parser/imports.go:58-80 | under inverse maps, two different paths asked in turn get different aliases |
| ImportAliaser.VendorStripped | parser/imports.go:51-53 | a vendored path and its unvendored form get the same alias |
| ImportAliaser.FreeFirstCandidate | parser/imports.go:58-73 | when the first candidate (the sanitized last segment, with `x` appended for a path of one segment) is free, it is the alias |
| ImportAliaser.PlainPathExample | parser/imports.go:58-80 | on empty maps `a/b/foo` gets `foo`, registered both ways |
| ImportAliaser.DashedPathExample | parser/imports.go:66-73 | on empty maps `a/b/my-pkg` gets `my_pkg` |
| ImportAliaser.SingleSegmentExample | parser/imports.go:60-62 | on empty maps `fmt` gets `fmtx` |
| ImportAliaser.DigitPathExample | parser/imports.go:63-65 | on empty maps `a/123` gets the empty alias |
| ImportAliaser.CollisionExample | parser/imports.go:59-77 | after `a/b/foo` took `foo`, `z/b/foo` gets `bfoo` |
| ImportAliaser.NeedImportAsWritten | parser/imports.go:59 | the code as written: for the empty key the loop does not run and the empty alias is registered |
| ImportAliaser.EmptyPathSharesAlias | parser/imports.go:59 | as written, after `a/123` took the empty alias, the empty path takes it too and the maps stop being inverse |
| ImportAliaser.EmptyPathWalks | parser/imports.go:59-77 | with the corrected walk, the empty path gets `x` whenever `x` is free |
| ImportAliaser.EmptyPathCorrected | parser/imports.go:59-77 | the corrected walk gives the empty path the fresh alias `x` |
| StringSets.Inserted | sets/strings.go:30-35 | after inserting, a string is a member exactly when it was before or is one of the items |
| StringSets.Insert | sets/strings.go:30-35 | the loop computes that set: nothing is removed and nothing beyond the items is added |
| StringSets.NewString | sets/strings.go:23-28 | a new set holds exactly the items |
| StringSets.InsertIdempotent | sets/strings.go:30-35 | inserting the same items again changes nothing |
| StringSets.InsertConcat | sets/strings.go:30-35 | inserting `a` then `b` is inserting `a + b` |
| StringSets.Has | sets/strings.go:37-41 | true exactly when the item is in the set |
| StringSets.HasInserted | sets/strings.go:37-41 | membership after insertion is membership before, or being an item |
| Fixture.FixtureStructs | tests/structx/structx.go:32-35 | the fixture file yields one struct, HelloServiceImpl, with the group's doc lines |
| Fixture.FixtureMethods | tests/structx/structx.go:37-62 | all six methods attach, value or pointer receiver, in declaration order |
| Fixture.MultiLineFuncParams | tests/structx/structx.go:41-44 | `age *int` is recorded as `int` with the pointer flag |
| Fixture.FixtureAnnotations | tests/structx/structx.go:32-34 | the struct's two annotation lines give two annotations with the tested values |
| Fixture.FixtureParse | tests/structx/structx.go:17-62 | end to end: one struct, six methods in order, two annotations |
| Fixture.FixturePackage | parser/impl.go:31-53 | parsing the fixture package keeps its one file |

## Left out

- `parsergo.go` (the scanner and `ScanPackages`) loads packages from disk through the `loader` package, which is not part of this model. The loaded package is a parameter (`LoadedPackage`) whose files are given as `Astx` values. `astx.NewAstx` is not part of this model either, so each file's `pkg`, `pkgPath` and `pkgName` are given directly.
- `Imports.ImportSpecs` depends on the loader's import table and on Go's map iteration order.
- `token.Pos` values (`StructSpec.Type`, `InterfaceSpec.Type`) are opaque source positions and are omitted.
- `regexpx.RegexpExtract` is a regular-expression engine. The name and value extractions are function parameters (`Annotations.RegexpExtraction`). Only the value examples of its tests constrain them (`AgreesWithRegexpTests`).
- Annotations.AnnotationFor: states nothing about the annotation name beyond which text it is taken from. The name pattern used by the extractor differs from the tested one, and under leftmost-first matching its greedy class would also take the parenthesised part.
- Unicode: `unicode.IsLetter` and `unicode.IsDigit` are restricted to ASCII, and strings are sequences of characters with no UTF-8 decoding.
- Malformed input panics in Go and is a precondition here (`FieldWellFormed`, `TagDecodable`). No error value is modelled, because the code returns none.
- `parser/parser.go` declares interfaces only, and `astx/spec.go` declares records only. The records are mirrored as datatypes.
- Mutation through pointers is modelled functionally: each pass returns the updated value, and `NeedImport` returns the new pair of maps with the alias. Aliasing between struct pointers plays no part, because each struct pointer is held once.
- The model follows the code where its behaviour is surprising:
  - tokens are split on every colon, not only the first;
  - malformed tags panic instead of failing with an error;
  - methods attach only to structs of the same file;
  - a struct is selected by its group's doc comment, not its own;
  - an unsupported type shape yields empty text silently, and a selector on a non-identifier base keeps only the selected name;
  - an alias may be empty, so it is not always a valid identifier.
- Annotations.AnnotationsAsWritten: its contract states only bounds and provenance; its exact agreement with the corrected pass is the lemma `AsWrittenAgrees`.
- Extractor.ParseAnnotations: uses the corrected annotation pass (`AnnotationsOf`), which skips doc lines shorter than the three-character leader, and not the loop as written, which panics on them. `Annotations.AsWrittenAgrees` shows the two agree wherever the code as written does not panic.
- ImportAliaser.NeedImport: uses the corrected walk, whose loop body runs at least once, and not the code as written, which skips it for the empty key. `ImportAliaser.NeedImportAsWritten` states that the two agree whenever the key left after vendor stripping is not empty; for the empty key the code as written registers the empty alias without checking whether another path holds it.
- Extractor.KeptPackages: the contract states membership and a length bound; which files are kept, and in what order, is stated by `KeptHead`, `KeptPackagesAppend`, `KeptWhenNonEmpty` and `UndocumentedFileDropped`.

## Findings

| source | as written | input that shows it | evidently intended | confidence | as-written member | corrected member |
|---|---|---|---|---|---|---|
| parser/impl.go:203 | every doc line is sliced from index 3 before testing for `@` | a struct doc comment with a bare `//` separator line, `["// Foo serves.", "//", "// @Service"]`: slicing `//` from 3 panics | lines shorter than the three-character leader are skipped, as they cannot be annotation lines | not executed; high | Annotations.AnnotationsAsWritten, Annotations.EmptyDocLine | Annotations.AnnotationsOf, Annotations.AsWrittenAgrees |
| parser/imports.go:59 | the collision loop starts from the sentinel `otherPath == ""`, so it never runs when the key is empty | `NeedImport("a/123")` takes the empty alias; then `NeedImport("")` (or any path ending in `/vendor/`) also gets the empty alias, and two paths share it | the loop body runs at least once, so the empty key gets a fresh alias (`x`) and the maps stay inverse | not executed; medium | ImportAliaser.NeedImportAsWritten, ImportAliaser.EmptyPathSharesAlias | ImportAliaser.NeedImport, ImportAliaser.EmptyPathCorrected |

=== FILE: annotations.dfy ===
/** Pseudo-annotations found in a struct's doc comment.

    A doc line is an annotation line when, after its first three characters
    (the `// ` leader), it starts with `@`. The name and the parenthesised
    value are cut out of that text by two fixed regular expressions; the
    regular-expression engine is not modelled, so both extractions are
    parameters, constrained only where a lemma says so.
 */
module Annotations {
  import opened Strings
  import opened AstxSpec

  /** Stand-in for regexpx.RegexpExtract with the annotation-name pattern
      (`name`) and the annotation-value pattern (`value`). */
  datatype RegexpExtraction = RegexpExtraction(name: string -> string, value: string -> string)

  const ServiceValue := "\"helloService\""
  const ServiceText := "@Service" + "(" + ServiceValue + ")"
  const ScanValue := "{\"path\":\"github.com/photowey/parsergo/tests\",\"excludes\":[\"github.com/photowey/parsergo/tests/structx\"]}"
  const ScanText := "@ComponentScan" + "(" + ScanValue + ")"

  /** The value extraction behaves as the regexpx tests pin it down. */
  ghost predicate AgreesWithRegexpTests(ex: RegexpExtraction) {
    ex.value(ServiceText) == ServiceValue && ex.value(ScanText) == ScanValue
  }

  /** The line, past its three-character leader, starts with `@`. */
  predicate IsAnnotationLine(comment: string) {
    |comment| >= 3 && HasPrefix(comment[3..], "@")
  }

  /** The annotation one annotation line produces. */
  function AnnotationFor(pkg: string, alias: string, comment: string, ex: RegexpExtraction): (a: Annotation)
    requires IsAnnotationLine(comment)
    ensures a.pkg == pkg && a.alias == alias && a.anno == comment
    ensures a.name == ex.name(comment[3..])
    ensures ('(' in comment[3..] && ')' in comment[3..]) ==> a.values == ex.value(comment[3..])
    ensures !('(' in comment[3..] && ')' in comment[3..]) ==> a.values == ""
  {
    var cmt := comment[3..];
    var values := if '(' in cmt && ')' in cmt then ex.value(cmt) else "";
    Annotation(pkg, alias, comment, ex.name(cmt), values)
  }

  /** The annotation lines of a doc comment, in order, duplicates kept. */
  function AnnotationLines(comments: seq<string>): (lines: seq<string>)
    ensures |lines| <= |comments|
    ensures forall i :: 0 <= i < |lines| ==> IsAnnotationLine(lines[i])
    ensures forall c :: c in lines <==> c in comments && IsAnnotationLine(c)
  {
    if |comments| == 0 then []
    else if IsAnnotationLine(comments[0]) then [comments[0]] + AnnotationLines(comments[1..])
    else AnnotationLines(comments[1..])
  }

  /** Annotation lines are taken in comment order: the lines of a
      concatenation are the lines of each part, one after the other. */
  lemma {:induction false} AnnotationLinesAppend(a: seq<string>, b: seq<string>)
    ensures AnnotationLines(a + b) == AnnotationLines(a) + AnnotationLines(b)
    decreases |a|
  {
    if |a| == 0 {
      assert a + b == b;
    } else {
      assert (a + b)[0] == a[0];
      assert (a + b)[1..] == a[1..] + b;
      AnnotationLinesAppend(a[1..], b);
    }
  }

  /** A single line is kept exactly when it is an annotation line. */
  lemma AnnotationLinesOne(c: string)
    ensures AnnotationLines([c]) == if IsAnnotationLine(c) then [c] else []
  {
    assert [c][1..] == [];
  }

  /** The annotations of one struct: exactly one per annotation line, in
      comment order; lines too short to carry the leader are skipped. */
  function AnnotationsOf(pkg: string, alias: string, comments: seq<string>, ex: RegexpExtraction): (annos: seq<Annotation>)
    ensures |annos| == |AnnotationLines(comments)|
    ensures forall i :: 0 <= i < |annos| ==>
              annos[i] == AnnotationFor(pkg, alias, AnnotationLines(comments)[i], ex)
  {
    if |comments| == 0 then []
    else
      var rest := AnnotationsOf(pkg, alias, comments[1..], ex);
      if IsAnnotationLine(comments[0]) then [AnnotationFor(pkg, alias, comments[0], ex)] + rest
      else rest
  }

  /** The loop of ParseAnnotations as written: `comment[3:]` is taken of every
      line, so every line must have at least three characters. */
  function AnnotationsAsWritten(pkg: string, alias: string, comments: seq<string>, ex: RegexpExtraction): (annos: seq<Annotation>)
    requires forall i :: 0 <= i < |comments| ==> |comments[i]| >= 3
    ensures |annos| <= |comments|
    ensures forall a :: a in annos ==> a.pkg == pkg && a.alias == alias && a.anno in comments
  {
    if |comments| == 0 then []
    else
      var cmt := comments[0][3..];
      var rest := AnnotationsAsWritten(pkg, alias, comments[1..], ex);
      if HasPrefix(cmt, "@") then
        var values := if '(' in cmt && ')' in cmt then ex.value(cmt) else "";
        [Annotation(pkg, alias, comments[0], ex.name(cmt), values)] + rest
      else rest
  }

  /** Wherever the loop as written does not panic, skipping short lines
      changes nothing. */
  lemma {:induction false} AsWrittenAgrees(pkg: string, alias: string, comments: seq<string>, ex: RegexpExtraction)
    requires forall i :: 0 <= i < |comments| ==> |comments[i]| >= 3
    ensures AnnotationsAsWritten(pkg, alias, comments, ex) == AnnotationsOf(pkg, alias, comments, ex)
  {
    if |comments| > 0 {
      AsWrittenAgrees(pkg, alias, comments[1..], ex);
    }
  }

  /** A doc comment with a bare `//` separator line, as gofmt-style comments
      often have, is outside the domain of the loop as written (slicing `//`
      from index 3 panics), while the corrected pass reads its one annotation. */
  lemma EmptyDocLine(ex: RegexpExtraction)
    ensures var doc := ["// Foo serves.", "//", "// @Service"];
      && !(forall i :: 0 <= i < |doc| ==> |doc[i]| >= 3)
      && AnnotationsOf("p", "a", doc, ex) == [Annotation("p", "a", "// @Service", ex.name("@Service"), "")]
  {
    var doc := ["// Foo serves.", "//", "// @Service"];
    assert |doc[1]| == 2;
    assert !IsAnnotationLine(doc[0]) by {
      assert doc[0][3..][0] == 'F';
    }
    assert !IsAnnotationLine(doc[1]);
    assert IsAnnotationLine(doc[2]) by {
      assert doc[2][3..] == "@Service";
    }
    assert doc[1..][1..] == [doc[2]];
    assert '(' !in doc[2][3..];
  }

  /** The two annotation lines of the test fixture carry exactly the values
      the regexpx tests expect. */
  lemma FixtureValues(pkg: string, alias: string, ex: RegexpExtraction)
    requires AgreesWithRegexpTests(ex)
    ensures IsAnnotationLine("// " + ServiceText)
    ensures IsAnnotationLine("// " + ScanText)
    ensures AnnotationFor(pkg, alias, "// " + ServiceText, ex).values == ServiceValue
    ensures AnnotationFor(pkg, alias, "// " + ScanText, ex).values == ScanValue
  {
    assert ("// " + ServiceText)[3..] == ServiceText;
    assert ("// " + ScanText)[3..] == ScanText;
    assert ServiceText[..1] == "@";
    assert ScanText[..1] == "@";
    assert ServiceText[8] == '(' && ServiceText[|ServiceText| - 1] == ')';
    assert ScanText[14] == '(' && ScanText[|ScanText| - 1] == ')';
  }
}

=== FILE: astxspec.dfy ===
/** The records the extractor produces, after the `astx` package, with the
    fields the extractor actually writes. Source positions (`token.Pos`) are
    not modelled. */
module AstxSpec {

  datatype AstSpec = AstSpec(id: string, name: string, pkgPath: string, pkgs: seq<PackageSpec>)

  datatype PackageSpec = PackageSpec(
    pkg: string,
    alias: string,
    structs: seq<StructSpec>,
    interfaces: seq<InterfaceSpec>,
    funcs: seq<FuncSpec>)

  datatype StructSpec = StructSpec(
    pkg: string,
    alias: string,
    name: string,
    comments: seq<string>,
    fields: seq<FieldSpec>,
    methods: seq<MethodSpec>,
    annotations: seq<Annotation>)

  datatype FieldSpec = FieldSpec(
    structName: string,
    name: string,
    typeText: string,
    ptr: bool,
    tags: seq<TagSpec>)

  datatype InterfaceSpec = InterfaceSpec(
    pkg: string,
    name: string,
    comments: seq<string>,
    methods: seq<MethodSpec>,
    annotations: seq<Annotation>)

  datatype MethodSpec = MethodSpec(
    pkg: string,
    structName: string,
    name: string,
    comments: seq<string>,
    params: seq<ParamSpec>,
    results: seq<ReturnSpec>)

  datatype FuncSpec = FuncSpec(
    pkg: string,
    name: string,
    comments: seq<string>,
    params: seq<ParamSpec>,
    results: seq<ReturnSpec>)

  datatype ParamSpec = ParamSpec(pkg: string, funcName: string, name: string, ptr: bool, typeText: string)

  datatype ReturnSpec = ReturnSpec(pkg: string, funcName: string, name: string, typeText: string, ptr: bool)

  /** `anno` is the whole comment line; `values` stays empty unless the line
      carries parentheses. */
  datatype Annotation = Annotation(pkg: string, alias: string, anno: string, name: string, values: string)

  datatype TagSpec = TagSpec(field: string, tags: seq<Tag>)

  /** `name` is the raw tag literal of the field, backquotes included. */
  datatype Tag = Tag(name: string, key: string, value: string)
}

=== FILE: extractor.dfy ===
/** The declaration extractor: one parsed file in, one PackageSpec out.

    ParseStructs walks the top-level declarations and keeps every struct type
    whose declaration group carries a doc comment; ParseMethods then attaches
    every method to the structs its receiver names, and ParseAnnotations reads
    the `@` lines of each struct's doc comment. Parse runs this over every
    file of a package and keeps the files that yielded a struct.
 */
module Extractor {
  import opened GoAst
  import opened AstxSpec
  import opened TypeResolver
  import opened TagDecoder
  import opened Annotations

  // ---------------------------------------------------------------------------
  // Inputs the extractor handles without panicking

  /** A struct field with a name (`field.Names[0]` panics on an embedded
      field) and a decodable tag, if any. */
  predicate FieldWellFormed(f: Field) {
    |f.names| >= 1 && (f.tag.Some? ==> TagDecodable(f.tag.value))
  }

  predicate FieldsWellFormed(fields: seq<Field>) {
    forall i :: 0 <= i < |fields| ==> FieldWellFormed(fields[i])
  }

  predicate SpecWellFormed(s: Spec) {
    s.TypeSpec? && s.body.StructType? ==> FieldsWellFormed(s.body.fields)
  }

  /** Only the structs of documented groups are looked into. */
  predicate DeclWellFormed(d: Decl) {
    d.GenDecl? && d.doc.Some? ==> forall i :: 0 <= i < |d.specs| ==> SpecWellFormed(d.specs[i])
  }

  predicate DeclsWellFormed(decls: seq<Decl>) {
    forall i :: 0 <= i < |decls| ==> DeclWellFormed(decls[i])
  }

  // ---------------------------------------------------------------------------
  // Fields (parserStruct, handleFieldType, handleFieldTag)

  function FieldOf(structName: string, f: Field): FieldSpec
    requires FieldWellFormed(f)
  {
    var rt := FieldType(f.fieldType);
    var name := f.names[0];
    var tags := match f.tag
      case Some(raw) => [DecodeTag(raw, name)]
      case None => [];
    FieldSpec(structName, name, rt.text, rt.ptr, tags)
  }

  /** One FieldSpec per field-list entry, in order, named by the entry's
      first name, typed by the field-type switch, with one TagSpec exactly
      when the entry has a tag. */
  function FieldsOf(structName: string, fields: seq<Field>): (fss: seq<FieldSpec>)
    requires FieldsWellFormed(fields)
    ensures |fss| == |fields|
    ensures forall i :: 0 <= i < |fields| ==>
              && fss[i].structName == structName
              && fss[i].name == fields[i].names[0]
              && Resolved(fss[i].typeText, fss[i].ptr) == FieldType(fields[i].fieldType)
              && (fields[i].tag.None? ==> fss[i].tags == [])
              && (fields[i].tag.Some? ==> fss[i].tags == [DecodeTag(fields[i].tag.value, fields[i].names[0])])
  {
    if |fields| == 0 then []
    else [FieldOf(structName, fields[0])] + FieldsOf(structName, fields[1..])
  }

  /** parserStruct: a fresh StructSpec with the file's package and alias,
      the group's doc lines verbatim, one FieldSpec per field, and no
      methods or annotations yet. */
  function ParserStruct(aw: Astx, doc: seq<string>, name: string, fields: seq<Field>): (ss: StructSpec)
    requires FieldsWellFormed(fields)
    ensures ss.pkg == aw.pkg && ss.alias == aw.pkgName && ss.name == name && ss.comments == doc
    ensures |ss.fields| == |fields|
    ensures forall i :: 0 <= i < |fields| ==> ss.fields[i].structName == name && ss.fields[i].name == fields[i].names[0]
    ensures ss.methods == [] && ss.annotations == []
    ensures ss.fields == FieldsOf(name, fields)
  {
    StructSpec(aw.pkg, aw.pkgName, name, doc, FieldsOf(name, fields), [], [])
  }

  // ---------------------------------------------------------------------------
  // Struct discovery (the first loop of ParseStructs)

  function SpecStructs(aw: Astx, doc: Option<seq<string>>, specs: seq<Spec>): seq<StructSpec>
    requires doc.Some? ==> forall i :: 0 <= i < |specs| ==> SpecWellFormed(specs[i])
  {
    if |specs| == 0 then []
    else
      var here := match specs[0]
        case TypeSpec(_, name, StructType(fields)) =>
          if doc.Some? then
            assert SpecWellFormed(specs[0]);
            [ParserStruct(aw, doc.value, name, fields)]
          else []
        case _ => [];
      here + SpecStructs(aw, doc, specs[1..])
  }

  function DeclStructs(aw: Astx, d: Decl): seq<StructSpec>
    requires DeclWellFormed(d)
  {
    match d
    case GenDecl(doc, specs) => SpecStructs(aw, doc, specs)
    case _ => []
  }

  function StructsOf(aw: Astx, decls: seq<Decl>): seq<StructSpec>
    requires DeclsWellFormed(decls)
  {
    if |decls| == 0 then []
    else DeclStructs(aw, decls[0]) + StructsOf(aw, decls[1..])
  }

  /** A one-group list gives that group's parameters: with ParamsAppend this
      fixes every parameter list group by group. */
  lemma ParamsOfOne(pkg: string, funcName: string, g: Field)
    ensures ParamsOf(pkg, funcName, [g]) == GroupParams(pkg, funcName, g)
  {
    assert [g][1..] == [];
    assert GroupParams(pkg, funcName, g) + [] == GroupParams(pkg, funcName, g);
  }

  /** Discovered structs start with no methods and no annotations. */
  lemma {:induction false} StructsFresh(aw: Astx, decls: seq<Decl>)
    requires DeclsWellFormed(decls)
    ensures forall s :: s in StructsOf(aw, decls) ==> s.methods == [] && s.annotations == []
  {
    StructSelection(aw, decls);
  }

  /** A struct type declaration together with the doc of its group. */
  datatype Candidate = Candidate(groupDoc: Option<seq<string>>, name: string, fields: seq<Field>)

  /** Every struct type spec of a group, documented or not, in order. */
  function SpecCandidates(doc: Option<seq<string>>, specs: seq<Spec>): (cs: seq<Candidate>)
    ensures forall c :: c in cs ==>
              (c.groupDoc == doc &&
               exists i :: 0 <= i < |specs| && specs[i].TypeSpec? && specs[i].name == c.name &&
                           specs[i].body == StructType(c.fields))
  {
    if |specs| == 0 then []
    else
      var here := match specs[0]
        case TypeSpec(_, name, StructType(fields)) => [Candidate(doc, name, fields)]
        case _ => [];
      here + SpecCandidates(doc, specs[1..])
  }

  function Candidates(decls: seq<Decl>): seq<Candidate> {
    if |decls| == 0 then []
    else
      var here := match decls[0]
        case GenDecl(doc, specs) => SpecCandidates(doc, specs)
        case _ => [];
      here + Candidates(decls[1..])
  }

  /** The candidates whose group has a doc comment. */
  function Documented(cs: seq<Candidate>): (ds: seq<Candidate>)
    ensures forall c :: c in ds <==> c in cs && c.groupDoc.Some?
  {
    if |cs| == 0 then []
    else if cs[0].groupDoc.Some? then [cs[0]] + Documented(cs[1..])
    else Documented(cs[1..])
  }

  predicate Ready(c: Candidate) {
    c.groupDoc.Some? && FieldsWellFormed(c.fields)
  }

  predicate AllReady(cs: seq<Candidate>) {
    forall i :: 0 <= i < |cs| ==> Ready(cs[i])
  }

  function Build(aw: Astx, cs: seq<Candidate>): (ss: seq<StructSpec>)
    requires AllReady(cs)
    ensures |ss| == |cs|
    ensures forall i :: 0 <= i < |cs| ==> ss[i] == ParserStruct(aw, cs[i].groupDoc.value, cs[i].name, cs[i].fields)
  {
    if |cs| == 0 then []
    else [ParserStruct(aw, cs[0].groupDoc.value, cs[0].name, cs[0].fields)] + Build(aw, cs[1..])
  }

  lemma {:induction false} DocumentedAppend(a: seq<Candidate>, b: seq<Candidate>)
    ensures Documented(a + b) == Documented(a) + Documented(b)
    decreases |a|
  {
    if |a| > 0 {
      assert (a + b)[0] == a[0];
      assert (a + b)[1..] == a[1..] + b;
      DocumentedAppend(a[1..], b);
      if a[0].groupDoc.Some? {
        assert Documented(a + b) == [a[0]] + Documented(a[1..] + b);
        assert Documented(a) == [a[0]] + Documented(a[1..]);
      }
    } else {
      assert a + b == b;
    }
  }

  /** Concatenation regroups; stated apart so that no element of a built
      sequence is looked at while regrouping. */
  lemma AppendAssoc<T>(x: seq<T>, y: seq<T>, z: seq<T>)
    ensures x + (y + z) == (x + y) + z
  {
  }

  lemma {:induction false} BuildAppend(aw: Astx, a: seq<Candidate>, b: seq<Candidate>)
    requires AllReady(a) && AllReady(b)
    ensures AllReady(a + b)
    ensures Build(aw, a + b) == Build(aw, a) + Build(aw, b)
    decreases |a|
  {
    var ab := a + b;
    if |a| == 0 {
      assert ab == b;
      assert Build(aw, a) == [];
      assert Build(aw, a) + Build(aw, b) == Build(aw, b);
    } else {
      var head := ParserStruct(aw, a[0].groupDoc.value, a[0].name, a[0].fields);
      assert ab[0] == a[0];
      assert ab[1..] == a[1..] + b;
      assert AllReady(a[1..]) by {
        forall k | 0 <= k < |a[1..]| ensures Ready(a[1..][k]) {
          assert a[1..][k] == a[k + 1];
        }
      }
      BuildAppend(aw, a[1..], b);
      assert Build(aw, a) == [head] + Build(aw, a[1..]);
      assert Build(aw, ab) == [head] + Build(aw, ab[1..]);
      AppendAssoc([head], Build(aw, a[1..]), Build(aw, b));
    }
  }

  lemma {:induction false} SpecSelection(aw: Astx, doc: Option<seq<string>>, specs: seq<Spec>)
    requires doc.Some? ==> forall i :: 0 <= i < |specs| ==> SpecWellFormed(specs[i])
    ensures AllReady(Documented(SpecCandidates(doc, specs)))
    ensures SpecStructs(aw, doc, specs) == Build(aw, Documented(SpecCandidates(doc, specs)))
    decreases |specs|
  {
    if |specs| > 0 {
      SpecSelection(aw, doc, specs[1..]);
      var here := match specs[0]
        case TypeSpec(_, name, StructType(fields)) => [Candidate(doc, name, fields)]
        case _ => [];
      DocumentedAppend(here, SpecCandidates(doc, specs[1..]));
      BuildAppend(aw, Documented(here), Documented(SpecCandidates(doc, specs[1..])));
    }
  }

  /** Struct selection: a struct type is kept exactly when its enclosing group
      has a doc comment (its own spec doc plays no part), kept structs come in
      declaration order, and each is built by parserStruct from the group's
      doc lines. */
  lemma {:induction false} StructSelection(aw: Astx, decls: seq<Decl>)
    requires DeclsWellFormed(decls)
    ensures AllReady(Documented(Candidates(decls)))
    ensures StructsOf(aw, decls) == Build(aw, Documented(Candidates(decls)))
    decreases |decls|
  {
    if |decls| > 0 {
      StructSelection(aw, decls[1..]);
      var here := match decls[0]
        case GenDecl(doc, specs) => SpecCandidates(doc, specs)
        case _ => [];
      if decls[0].GenDecl? {
        SpecSelection(aw, decls[0].doc, decls[0].specs);
      }
      DocumentedAppend(here, Candidates(decls[1..]));
      BuildAppend(aw, Documented(here), Documented(Candidates(decls[1..])));
    }
  }

  // ---------------------------------------------------------------------------
  // Parameters and results (handleParams, handleResults)

  /** The number of names over all groups of a parameter list. */
  function NameCount(params: seq<Field>): nat {
    if |params| == 0 then 0 else |params[0].names| + NameCount(params[1..])
  }

  /** One group `a, b T`: one ParamSpec per name, all of the same type. */
  function GroupParams(pkg: string, funcName: string, g: Field): (ps: seq<ParamSpec>)
    ensures |ps| == |g.names|
    ensures forall i :: 0 <= i < |ps| ==>
              ps[i] == ParamSpec(pkg, funcName, g.names[i], ParamType(g.fieldType).ptr, ParamType(g.fieldType).text)
  {
    var rt := ParamType(g.fieldType);
    seq(|g.names|, i requires 0 <= i < |g.names| => ParamSpec(pkg, funcName, g.names[i], rt.ptr, rt.text))
  }

  function ParamsOf(pkg: string, funcName: string, params: seq<Field>): (ps: seq<ParamSpec>)
    ensures |ps| == NameCount(params)
  {
    if |params| == 0 then []
    else GroupParams(pkg, funcName, params[0]) + ParamsOf(pkg, funcName, params[1..])
  }

  /** Parameter lists concatenate: every group contributes its own names, in
      order, and nothing else. */
  lemma {:induction false} ParamsAppend(pkg: string, funcName: string, a: seq<Field>, b: seq<Field>)
    ensures ParamsOf(pkg, funcName, a + b) == ParamsOf(pkg, funcName, a) + ParamsOf(pkg, funcName, b)
    decreases |a|
  {
    if |a| > 0 {
      assert (a + b)[0] == a[0];
      assert (a + b)[1..] == a[1..] + b;
      ParamsAppend(pkg, funcName, a[1..], b);
      var g := GroupParams(pkg, funcName, a[0]);
      assert ParamsOf(pkg, funcName, a + b) == g + ParamsOf(pkg, funcName, a[1..] + b);
      assert ParamsOf(pkg, funcName, a) == g + ParamsOf(pkg, funcName, a[1..]);
    } else {
      assert a + b == b;
    }
  }

  /** The name a result gets: its first name, or none. */
  function ResultName(r: Field): string {
    if |r.names| > 0 then r.names[0] else ""
  }

  /** One ReturnSpec per result entry (not per name). */
  function ReturnsOf(pkg: string, funcName: string, results: seq<Field>): (rs: seq<ReturnSpec>)
    ensures |rs| == |results|
    ensures forall i :: 0 <= i < |results| ==>
              && rs[i].pkg == pkg && rs[i].funcName == funcName
              && rs[i].name == ResultName(results[i])
              && Resolved(rs[i].typeText, rs[i].ptr) == ReturnType(results[i].fieldType)
  {
    if |results| == 0 then []
    else
      var rt := ReturnType(results[0].fieldType);
      [ReturnSpec(pkg, funcName, ResultName(results[0]), rt.text, rt.ptr)] + ReturnsOf(pkg, funcName, results[1..])
  }

  // ---------------------------------------------------------------------------
  // Method attachment (ParseMethods)

  /** The struct name a receiver type designates: `T` and `*T` give `T`,
      anything else (including `*pkg.T`) gives the empty string. */
  function ReceiverBase(e: Expr): (name: string)
    ensures name == "" || e == Ident(name) || e == Star(Ident(name))
    ensures e.Ident? ==> name == e.name
    ensures e.Star? && e.x.Ident? ==> name == e.x.name
  {
    match e
    case Ident(n) => n
    case Star(Ident(n)) => n
    case _ => ""
  }

  /** A receiver matches a (non-empty) struct name exactly when it is that
      name or a pointer to it. */
  lemma ReceiverMatch(e: Expr, name: string)
    requires name != ""
    ensures ReceiverBase(e) == name <==> (e == Ident(name) || e == Star(Ident(name)))
  {
  }

  function MethodFor(pkg: string, d: Decl, structName: string): MethodSpec
    requires d.FuncDecl?
  {
    MethodSpec(pkg, structName, d.name, DocLines(d.doc),
               ParamsOf(pkg, d.name, d.params), ReturnsOf(pkg, d.name, d.results))
  }

  /** Reference: the methods one receiver list contributes to the struct `name`. */
  function RecvMethods(pkg: string, d: Decl, recv: seq<Field>, name: string): seq<MethodSpec>
    requires d.FuncDecl?
  {
    if |recv| == 0 then []
    else
      (if ReceiverBase(recv[0].fieldType) == name then [MethodFor(pkg, d, name)] else [])
      + RecvMethods(pkg, d, recv[1..], name)
  }

  function DeclMethods(pkg: string, d: Decl, name: string): seq<MethodSpec> {
    match d
    case FuncDecl(_, Some(recv), _, _, _) => RecvMethods(pkg, d, recv, name)
    case _ => []
  }

  /** Reference: all methods of a file that belong to the struct `name`, in
      declaration order. */
  function MethodsFor(pkg: string, decls: seq<Decl>, name: string): seq<MethodSpec> {
    if |decls| == 0 then []
    else DeclMethods(pkg, decls[0], name) + MethodsFor(pkg, decls[1..], name)
  }

  /** The innermost loop: every struct whose name matches the receiver gets
      the method appended. */
  function AttachField(pkg: string, structs: seq<StructSpec>, d: Decl, f: Field): (ss: seq<StructSpec>)
    requires d.FuncDecl?
    ensures |ss| == |structs|
    ensures forall i :: 0 <= i < |structs| ==>
              ss[i] == if structs[i].name == ReceiverBase(f.fieldType)
                       then structs[i].(methods := structs[i].methods + [MethodFor(pkg, d, structs[i].name)])
                       else structs[i]
  {
    seq(|structs|, i requires 0 <= i < |structs| =>
      if structs[i].name == ReceiverBase(f.fieldType)
      then structs[i].(methods := structs[i].methods + [MethodFor(pkg, d, structs[i].name)])
      else structs[i])
  }

  function AttachRecv(pkg: string, structs: seq<StructSpec>, d: Decl, recv: seq<Field>): (ss: seq<StructSpec>)
    requires d.FuncDecl?
    ensures |ss| == |structs|
    ensures forall i :: 0 <= i < |structs| ==>
              ss[i] == structs[i].(methods := structs[i].methods + RecvMethods(pkg, d, recv, structs[i].name))
    decreases |recv|
  {
    if |recv| == 0 then structs
    else
      var next := AttachField(pkg, structs, d, recv[0]);
      var ss := AttachRecv(pkg, next, d, recv[1..]);
      assert forall i :: 0 <= i < |structs| ==>
               ss[i].methods == structs[i].methods + RecvMethods(pkg, d, recv, structs[i].name) by {
        forall i | 0 <= i < |structs|
          ensures ss[i].methods == structs[i].methods + RecvMethods(pkg, d, recv, structs[i].name)
        {
          var here := if ReceiverBase(recv[0].fieldType) == structs[i].name then [MethodFor(pkg, d, structs[i].name)] else [];
          assert next[i].methods == structs[i].methods + here;
          assert next[i].name == structs[i].name;
          assert RecvMethods(pkg, d, recv, structs[i].name) == here + RecvMethods(pkg, d, recv[1..], structs[i].name);
        }
      }
      ss
  }

  function AttachDecl(pkg: string, structs: seq<StructSpec>, d: Decl): (ss: seq<StructSpec>)
    ensures |ss| == |structs|
    ensures forall i :: 0 <= i < |structs| ==>
              ss[i] == structs[i].(methods := structs[i].methods + DeclMethods(pkg, d, structs[i].name))
  {
    match d
    case FuncDecl(_, Some(recv), _, _, _) => AttachRecv(pkg, structs, d, recv)
    case _ => structs
  }

  /** The outer loop of ParseMethods, declaration by declaration. Every struct
      ends up with exactly the methods whose receiver names it, appended in
      declaration order; nothing else about the structs changes. */
  function AttachAll(pkg: string, structs: seq<StructSpec>, decls: seq<Decl>): (ss: seq<StructSpec>)
    ensures |ss| == |structs|
    ensures forall i :: 0 <= i < |structs| ==>
              ss[i] == structs[i].(methods := structs[i].methods + MethodsFor(pkg, decls, structs[i].name))
    decreases |decls|
  {
    if |decls| == 0 then structs
    else
      var next := AttachDecl(pkg, structs, decls[0]);
      var ss := AttachAll(pkg, next, decls[1..]);
      AttachAllStep(pkg, structs, decls, next, ss);
      ss
  }

  lemma AttachAllStep(pkg: string, structs: seq<StructSpec>, decls: seq<Decl>, next: seq<StructSpec>, ss: seq<StructSpec>)
    requires |decls| > 0 && |next| == |structs| && |ss| == |structs|
    requires forall i :: 0 <= i < |structs| ==>
               next[i] == structs[i].(methods := structs[i].methods + DeclMethods(pkg, decls[0], structs[i].name))
    requires forall i :: 0 <= i < |next| ==>
               ss[i] == next[i].(methods := next[i].methods + MethodsFor(pkg, decls[1..], next[i].name))
    ensures forall i :: 0 <= i < |structs| ==>
              ss[i] == structs[i].(methods := structs[i].methods + MethodsFor(pkg, decls, structs[i].name))
  {
    forall i | 0 <= i < |structs|
      ensures ss[i] == structs[i].(methods := structs[i].methods + MethodsFor(pkg, decls, structs[i].name))
    {
      var s := structs[i];
      var dm := DeclMethods(pkg, decls[0], s.name);
      var rest := MethodsFor(pkg, decls[1..], s.name);
      assert next[i] == s.(methods := s.methods + dm);
      assert ss[i] == next[i].(methods := next[i].methods + rest);
      assert MethodsFor(pkg, decls, s.name) == dm + rest;
      assert s.methods + dm + rest == s.methods + (dm + rest);
    }
  }

  /** ParseMethods: each struct of the package spec gets, after the methods
      it has, every method of the file whose receiver names it, in
      declaration order; nothing else changes. */
  function ParseMethods(aw: Astx, ps: PackageSpec): (r: PackageSpec)
    ensures r == ps.(structs := r.structs)
    ensures |r.structs| == |ps.structs|
    ensures forall i :: 0 <= i < |ps.structs| ==>
              r.structs[i] == ps.structs[i].(methods := ps.structs[i].methods +
                                                        MethodsFor(ps.pkg, aw.ast.decls, ps.structs[i].name))
  {
    ps.(structs := AttachAll(ps.pkg, ps.structs, aw.ast.decls))
  }

  // ---------------------------------------------------------------------------
  // Annotations (ParseAnnotations)

  function AnnotateStruct(s: StructSpec, ex: RegexpExtraction): StructSpec {
    s.(annotations := s.annotations + AnnotationsOf(s.pkg, s.alias, s.comments, ex))
  }

  function ParseAnnotations(ps: PackageSpec, ex: RegexpExtraction): (r: PackageSpec)
    ensures r == ps.(structs := r.structs)
    ensures |r.structs| == |ps.structs|
    ensures forall i :: 0 <= i < |ps.structs| ==> r.structs[i] == AnnotateStruct(ps.structs[i], ex)
  {
    ps.(structs := seq(|ps.structs|, i requires 0 <= i < |ps.structs| => AnnotateStruct(ps.structs[i], ex)))
  }

  // ---------------------------------------------------------------------------
  // ParseStructs and Parse

  /** The PackageSpec of one file: its documented structs, each with the
      methods of the file whose receiver names it and the annotations of its
      own doc comment; no interfaces or free functions. */
  function ParseStructs(aw: Astx, ex: RegexpExtraction): (ps: PackageSpec)
    requires DeclsWellFormed(aw.ast.decls)
    ensures ps.pkg == aw.pkgPath && ps.alias == aw.pkgName
    ensures ps.interfaces == [] && ps.funcs == []
    ensures |ps.structs| == |StructsOf(aw, aw.ast.decls)|
    ensures forall i :: 0 <= i < |ps.structs| ==>
              var s := StructsOf(aw, aw.ast.decls)[i];
              ps.structs[i] == s.(methods := s.methods + MethodsFor(aw.pkgPath, aw.ast.decls, s.name),
                                  annotations := AnnotationsOf(s.pkg, s.alias, s.comments, ex))
  {
    var structs := StructsOf(aw, aw.ast.decls);
    var ps0 := PackageSpec(aw.pkgPath, aw.pkgName, structs, [], []);
    var ps1 := ParseMethods(aw, ps0);
    var ps2 := ParseAnnotations(ps1, ex);
    StructsFresh(aw, aw.ast.decls);
    ParseStructsShape(aw.pkgPath, aw.ast.decls, structs, ps1.structs, ps2.structs, ex);
    ps2
  }

  lemma ParseStructsShape(pkg: string, decls: seq<Decl>, structs: seq<StructSpec>,
                          attached: seq<StructSpec>, annotated: seq<StructSpec>, ex: RegexpExtraction)
    requires forall s :: s in structs ==> s.annotations == []
    requires |attached| == |structs| && |annotated| == |structs|
    requires forall i :: 0 <= i < |structs| ==>
               attached[i] == structs[i].(methods := structs[i].methods + MethodsFor(pkg, decls, structs[i].name))
    requires forall i :: 0 <= i < |structs| ==> annotated[i] == AnnotateStruct(attached[i], ex)
    ensures forall i :: 0 <= i < |structs| ==>
              var s := structs[i];
              annotated[i] == s.(methods := s.methods + MethodsFor(pkg, decls, s.name),
                                 annotations := AnnotationsOf(s.pkg, s.alias, s.comments, ex))
  {
    forall i | 0 <= i < |structs|
      ensures var s := structs[i];
              annotated[i] == s.(methods := s.methods + MethodsFor(pkg, decls, s.name),
                                 annotations := AnnotationsOf(s.pkg, s.alias, s.comments, ex))
    {
      var s := structs[i];
      assert s in structs;
      assert s.annotations == [];
      var a := attached[i];
      assert a.pkg == s.pkg && a.alias == s.alias && a.comments == s.comments && a.annotations == [];
      assert [] + AnnotationsOf(s.pkg, s.alias, s.comments, ex) == AnnotationsOf(s.pkg, s.alias, s.comments, ex);
    }
  }

  /** Files the loop of Parse may hand to ParseStructs. */
  predicate FilesWellFormed(files: seq<Astx>) {
    forall i :: 0 <= i < |files| ==> files[i].ast.comments.Some? ==> DeclsWellFormed(files[i].ast.decls)
  }

  /** The loop of Parse: files without comments are skipped, and so are files
      that yield no struct; the rest keep their order. */
  function KeptPackages(files: seq<Astx>, ex: RegexpExtraction): (pkgs: seq<PackageSpec>)
    requires FilesWellFormed(files)
    ensures |pkgs| <= |files|
    ensures forall p :: p in pkgs ==> |p.structs| > 0
    ensures forall p :: p in pkgs ==>
              exists i :: 0 <= i < |files| && files[i].ast.comments.Some? &&
                          DeclsWellFormed(files[i].ast.decls) && p == ParseStructs(files[i], ex)
  {
    if |files| == 0 then []
    else
      var rest := KeptPackages(files[1..], ex);
      assert forall p :: p in rest ==>
               exists i :: 0 <= i < |files| && files[i].ast.comments.Some? &&
                           DeclsWellFormed(files[i].ast.decls) && p == ParseStructs(files[i], ex) by {
        forall p | p in rest
          ensures exists i :: 0 <= i < |files| && files[i].ast.comments.Some? &&
                              DeclsWellFormed(files[i].ast.decls) && p == ParseStructs(files[i], ex)
        {
          var j :| 0 <= j < |files[1..]| && files[1..][j].ast.comments.Some? &&
                   DeclsWellFormed(files[1..][j].ast.decls) && p == ParseStructs(files[1..][j], ex);
          assert files[j + 1] == files[1..][j];
        }
      }
      if files[0].ast.comments.None? then rest
      else
        var ps := ParseStructs(files[0], ex);
        if |ps.structs| == 0 then rest else [ps] + rest
  }

  /** Parse: the package's identity and the PackageSpecs of its kept files. */
  function Parse(lp: LoadedPackage, ex: RegexpExtraction): (r: AstSpec)
    requires FilesWellFormed(lp.files)
    ensures r.id == lp.id && r.name == lp.name && r.pkgPath == lp.pkgPath
    ensures |r.pkgs| <= |lp.files|
    ensures forall p :: p in r.pkgs ==> |p.structs| > 0
    ensures r.pkgs == KeptPackages(lp.files, ex)
  {
    AstSpec(lp.id, lp.name, lp.pkgPath, KeptPackages(lp.files, ex))
  }

  /** Parse keeps file order: the result for two runs of files is the
      result for the first followed by the result for the second. */
  lemma {:induction false} KeptPackagesAppend(a: seq<Astx>, b: seq<Astx>, ex: RegexpExtraction)
    requires FilesWellFormed(a) && FilesWellFormed(b)
    ensures FilesWellFormed(a + b)
    ensures KeptPackages(a + b, ex) == KeptPackages(a, ex) + KeptPackages(b, ex)
    decreases |a|
  {
    var ab := a + b;
    forall k | 0 <= k < |ab|
      ensures ab[k].ast.comments.Some? ==> DeclsWellFormed(ab[k].ast.decls)
    {
      if k < |a| {
        assert ab[k] == a[k];
      } else {
        assert ab[k] == b[k - |a|];
      }
    }
    if |a| > 0 {
      assert ab[0] == a[0];
      assert ab[1..] == a[1..] + b;
      assert FilesWellFormed(a[1..]) by {
        forall k | 0 <= k < |a[1..]|
          ensures a[1..][k].ast.comments.Some? ==> DeclsWellFormed(a[1..][k].ast.decls)
        {
          assert a[1..][k] == a[k + 1];
        }
      }
      KeptPackagesAppend(a[1..], b, ex);
      var head := if a[0].ast.comments.Some? && |ParseStructs(a[0], ex).structs| > 0
                  then [ParseStructs(a[0], ex)] else [];
      assert KeptPackages(a, ex) == head + KeptPackages(a[1..], ex);
      assert KeptPackages(ab, ex) == head + KeptPackages(ab[1..], ex);
      AppendAssoc(head, KeptPackages(a[1..], ex), KeptPackages(b, ex));
    } else {
      assert ab == b;
    }
  }

  /** Conversely, every file with comments that yields a struct is kept, in
      its place: after what the files before it give and before what the
      files after it give. */
  lemma KeptWhenNonEmpty(files: seq<Astx>, ex: RegexpExtraction, i: int)
    requires FilesWellFormed(files)
    requires 0 <= i < |files| && files[i].ast.comments.Some?
    requires |ParseStructs(files[i], ex).structs| > 0
    ensures FilesWellFormed(files[..i]) && FilesWellFormed(files[i + 1..])
    ensures KeptPackages(files, ex) ==
              KeptPackages(files[..i], ex) + [ParseStructs(files[i], ex)] + KeptPackages(files[i + 1..], ex)
  {
    var pre := files[..i];
    var post := files[i..];
    FilesSplit(files, i);
    KeptPackagesAppend(pre, post, ex);
    KeptHead(post, ex);
    assert post[0] == files[i];
    assert post[1..] == files[i + 1..];
    AppendAssoc(KeptPackages(pre, ex), [ParseStructs(files[i], ex)], KeptPackages(files[i + 1..], ex));
  }

  /** Both sides of a cut through well-formed files are well-formed. */
  lemma FilesSplit(files: seq<Astx>, i: int)
    requires FilesWellFormed(files)
    requires 0 <= i <= |files|
    ensures files == files[..i] + files[i..]
    ensures FilesWellFormed(files[..i]) && FilesWellFormed(files[i..])
  {
    var pre := files[..i];
    var post := files[i..];
    assert FilesWellFormed(pre) by {
      forall k | 0 <= k < |pre| ensures pre[k] == files[k] { }
    }
    assert FilesWellFormed(post) by {
      forall k | 0 <= k < |post| ensures post[k] == files[i + k] { }
    }
  }

  /** One step of the loop of Parse: the first file contributes its
      PackageSpec when it has comments and yields a struct, and nothing
      otherwise. */
  lemma KeptHead(files: seq<Astx>, ex: RegexpExtraction)
    requires FilesWellFormed(files) && |files| > 0
    ensures FilesWellFormed(files[1..])
    ensures KeptPackages(files, ex) ==
              (if files[0].ast.comments.Some? && |ParseStructs(files[0], ex).structs| > 0
               then [ParseStructs(files[0], ex)] else []) + KeptPackages(files[1..], ex)
  {
    assert FilesWellFormed(files[1..]) by {
      forall k | 0 <= k < |files[1..]| ensures files[1..][k] == files[k + 1] { }
    }
    if files[0].ast.comments.None? || |ParseStructs(files[0], ex).structs| == 0 {
      assert [] + KeptPackages(files[1..], ex) == KeptPackages(files[1..], ex);
    }
  }

  /** A file in which no struct type has a documented group contributes
      nothing, whatever methods or undocumented structs it holds. */
  lemma UndocumentedFileDropped(f: Astx, ex: RegexpExtraction)
    requires f.ast.comments.Some? ==> DeclsWellFormed(f.ast.decls)
    requires Documented(Candidates(f.ast.decls)) == []
    ensures FilesWellFormed([f])
    ensures KeptPackages([f], ex) == []
  {
    if f.ast.comments.Some? {
      StructSelection(f, f.ast.decls);
    }
    assert [f][1..] == [];
  }

  // ---------------------------------------------------------------------------
  // Free functions and interfaces (ParseFuncs, ParseInterfaces)

  /** Every receiver-less function, in order, with its doc lines; the
      parameter and result lists are left empty. */
  function FuncsOf(pkg: string, decls: seq<Decl>): (fs: seq<FuncSpec>)
    ensures |fs| <= |decls|
    ensures forall f :: f in fs ==> f.pkg == pkg && f.params == [] && f.results == []
    ensures forall f :: f in fs ==>
              exists i :: 0 <= i < |decls| && decls[i].FuncDecl? && decls[i].recv.None? &&
                          f.name == decls[i].name && f.comments == DocLines(decls[i].doc)
    ensures forall i :: 0 <= i < |decls| && decls[i].FuncDecl? && decls[i].recv.None? ==>
              FuncSpec(pkg, decls[i].name, DocLines(decls[i].doc), [], []) in fs
  {
    if |decls| == 0 then []
    else
      var rest := FuncsOf(pkg, decls[1..]);
      assert forall i :: 1 <= i < |decls| ==> decls[i] == decls[1..][i - 1];
      match decls[0]
      case FuncDecl(doc, None, name, _, _) => [FuncSpec(pkg, name, DocLines(doc), [], [])] + rest
      case _ => rest
  }

  /** One declaration gives one FuncSpec when it is a function without a
      receiver, and none otherwise. */
  lemma FuncsOfOne(pkg: string, d: Decl)
    ensures FuncsOf(pkg, [d]) ==
              if d.FuncDecl? && d.recv.None? then [FuncSpec(pkg, d.name, DocLines(d.doc), [], [])] else []
  {
    assert [d][1..] == [];
  }

  /** Functions are recorded in declaration order: the result for two runs
      of declarations is the first result followed by the second. */
  lemma {:induction false} FuncsOfAppend(pkg: string, a: seq<Decl>, b: seq<Decl>)
    ensures FuncsOf(pkg, a + b) == FuncsOf(pkg, a) + FuncsOf(pkg, b)
    decreases |a|
  {
    if |a| == 0 {
      assert a + b == b;
    } else {
      assert (a + b)[0] == a[0];
      assert (a + b)[1..] == a[1..] + b;
      FuncsOfAppend(pkg, a[1..], b);
      AppendAssoc(FuncsOf(pkg, [a[0]]), FuncsOf(pkg, a[1..]), FuncsOf(pkg, b));
      FuncsOfOne(pkg, a[0]);
    }
  }

  /** ParseFuncs appends the file's receiver-less functions and changes
      nothing else. */
  function ParseFuncs(aw: Astx, ps: PackageSpec): (r: PackageSpec)
    ensures r.structs == ps.structs && r.interfaces == ps.interfaces
    ensures r.pkg == ps.pkg && r.alias == ps.alias
    ensures r.funcs == ps.funcs + FuncsOf(aw.pkg, aw.ast.decls)
  {
    ps.(funcs := ps.funcs + FuncsOf(aw.pkg, aw.ast.decls))
  }

  /** The interface types of one group: all of them when the group has a doc
      comment, none otherwise; each with the group's doc lines and no
      methods. */
  function SpecInterfaces(pkg: string, doc: Option<seq<string>>, specs: seq<Spec>): (its: seq<InterfaceSpec>)
    ensures doc.None? ==> its == []
    ensures forall it :: it in its ==>
              doc.Some? && it.pkg == pkg && it.comments == doc.value && it.methods == [] && it.annotations == [] &&
              exists i :: 0 <= i < |specs| && specs[i].TypeSpec? && specs[i].name == it.name &&
                          specs[i].body == InterfaceType
    ensures doc.Some? ==>
              forall i :: 0 <= i < |specs| && specs[i].TypeSpec? && specs[i].body == InterfaceType ==>
                InterfaceSpec(pkg, specs[i].name, doc.value, [], []) in its
  {
    if |specs| == 0 then []
    else
      var rest := SpecInterfaces(pkg, doc, specs[1..]);
      assert forall i :: 1 <= i < |specs| ==> specs[i] == specs[1..][i - 1];
      match specs[0]
      case TypeSpec(_, name, InterfaceType) =>
        if doc.Some? then [InterfaceSpec(pkg, name, doc.value, [], [])] + rest else rest
      case _ => rest
  }

  /** One spec gives one InterfaceSpec when it is an interface type in a
      documented group, and none otherwise. */
  lemma SpecInterfacesOne(pkg: string, doc: Option<seq<string>>, s: Spec)
    ensures SpecInterfaces(pkg, doc, [s]) ==
              if doc.Some? && s.TypeSpec? && s.body == InterfaceType
              then [InterfaceSpec(pkg, s.name, doc.value, [], [])] else []
  {
    assert [s][1..] == [];
  }

  /** Within a group, interfaces are recorded in spec order. */
  lemma {:induction false} SpecInterfacesAppend(pkg: string, doc: Option<seq<string>>, a: seq<Spec>, b: seq<Spec>)
    ensures SpecInterfaces(pkg, doc, a + b) == SpecInterfaces(pkg, doc, a) + SpecInterfaces(pkg, doc, b)
    decreases |a|
  {
    if |a| == 0 {
      assert a + b == b;
    } else {
      assert (a + b)[0] == a[0];
      assert (a + b)[1..] == a[1..] + b;
      SpecInterfacesAppend(pkg, doc, a[1..], b);
      var here := SpecInterfaces(pkg, doc, [a[0]]);
      assert [a[0]][1..] == [];
      AppendAssoc(here, SpecInterfaces(pkg, doc, a[1..]), SpecInterfaces(pkg, doc, b));
    }
  }

  /** The interface types of documented groups, in order, with the group's
      doc lines and no methods. */
  function InterfacesOf(pkg: string, decls: seq<Decl>): (its: seq<InterfaceSpec>)
    ensures forall it :: it in its ==>
              it.pkg == pkg && it.methods == [] && it.annotations == [] &&
              exists i :: 0 <= i < |decls| && decls[i].GenDecl? && decls[i].doc == Some(it.comments) &&
                          exists j :: 0 <= j < |decls[i].specs| && decls[i].specs[j].TypeSpec? &&
                                      decls[i].specs[j].name == it.name && decls[i].specs[j].body == InterfaceType
    ensures forall i, j :: 0 <= i < |decls| && decls[i].GenDecl? && decls[i].doc.Some? &&
                           0 <= j < |decls[i].specs| && decls[i].specs[j].TypeSpec? &&
                           decls[i].specs[j].body == InterfaceType ==>
              InterfaceSpec(pkg, decls[i].specs[j].name, decls[i].doc.value, [], []) in its
  {
    if |decls| == 0 then []
    else
      var rest := InterfacesOf(pkg, decls[1..]);
      assert forall i :: 1 <= i < |decls| ==> decls[i] == decls[1..][i - 1];
      match decls[0]
      case GenDecl(doc, specs) => SpecInterfaces(pkg, doc, specs) + rest
      case _ => rest
  }

  /** One declaration contributes the interfaces of its group when it is a
      general declaration, and none otherwise. */
  lemma InterfacesOfOne(pkg: string, d: Decl)
    ensures InterfacesOf(pkg, [d]) == if d.GenDecl? then SpecInterfaces(pkg, d.doc, d.specs) else []
  {
    assert [d][1..] == [];
    if d.GenDecl? {
      assert SpecInterfaces(pkg, d.doc, d.specs) + [] == SpecInterfaces(pkg, d.doc, d.specs);
    }
  }

  /** Interfaces are recorded in declaration order. */
  lemma {:induction false} InterfacesOfAppend(pkg: string, a: seq<Decl>, b: seq<Decl>)
    ensures InterfacesOf(pkg, a + b) == InterfacesOf(pkg, a) + InterfacesOf(pkg, b)
    decreases |a|
  {
    if |a| == 0 {
      assert a + b == b;
    } else {
      assert (a + b)[0] == a[0];
      assert (a + b)[1..] == a[1..] + b;
      InterfacesOfAppend(pkg, a[1..], b);
      var here := InterfacesOf(pkg, [a[0]]);
      assert [a[0]][1..] == [];
      AppendAssoc(here, InterfacesOf(pkg, a[1..]), InterfacesOf(pkg, b));
    }
  }

  /** ParseInterfaces appends the file's interfaces and changes nothing
      else. */
  function ParseInterfaces(aw: Astx, ps: PackageSpec): (r: PackageSpec)
    ensures r.structs == ps.structs && r.funcs == ps.funcs
    ensures r.pkg == ps.pkg && r.alias == ps.alias
    ensures r.interfaces == ps.interfaces + InterfacesOf(ps.pkg, aw.ast.decls)
  {
    ps.(interfaces := ps.interfaces + InterfacesOf(ps.pkg, aw.ast.decls))
  }
}

=== FILE: fixture.dfy ===
/** The test package `tests/structx` as the extractor sees it: one file with
    an import, an undocumented interface, a documented struct carrying two
    annotation lines, and six methods on that struct. Slice and map types
    are outside the supported shapes and appear as `Other`. */
module Fixture {
  import opened GoAst
  import opened AstxSpec
  import opened TypeResolver
  import opened Annotations
  import opened Extractor

  const PkgPath := "github.com/photowey/parsergo/tests/structx"
  const StructName := "HelloServiceImpl"

  const Description := StructName + " An implementation of the HelloService interface"

  const Doc: seq<string> := [
    "// " + Description,
    "// " + ServiceText,
    "// " + ScanText
  ]

  function Param(name: string, t: Expr): Field {
    Field([name], t, None)
  }

  function Result(t: Expr): Field {
    Field([], t, None)
  }

  /** A method of HelloServiceImpl; `ptr` says whether the receiver is a
      pointer. */
  function Method(ptr: bool, name: string, params: seq<Field>, results: seq<Field>): Decl {
    var recvType := if ptr then Star(Ident(StructName)) else Ident(StructName);
    FuncDecl(None, Some([Field(["s"], recvType, None)]), name, params, results)
  }

  const Str := Ident("string")
  const Err := Ident("error")

  const Decls: seq<Decl> := [
    GenDecl(None, [OtherSpec]),
    GenDecl(None, [TypeSpec(None, "HelloService", InterfaceType)]),
    GenDecl(Some(Doc), [TypeSpec(None, StructName, StructType([]))]),
    Method(false, "SayHello", [Param("name", Str)], [Result(Str)]),
    Method(true, "MultiLineFunc", [Param("name", Str), Param("age", Star(Ident("int")))], [Result(Str), Result(Err)]),
    Method(true, "SliceParamFunc", [Param("name", Str), Param("hobbies", Other)], [Result(Str), Result(Err)]),
    Method(true, "MapParamFunc", [Param("name", Str), Param("info", Other)], [Result(Str), Result(Err)]),
    Method(true, "SliceReturnFunc", [Param("name", Str), Param("hobbies", Other)], [Result(Other), Result(Err)]),
    Method(true, "MapReturnFunc", [Param("name", Str), Param("info", Other)], [Result(Other), Result(Err)])
  ]

  const File := Astx(GoAst.File(Some([Doc]), Decls), PkgPath, PkgPath, "structx")

  /** The one struct found: the documented HelloServiceImpl, with the
      group's doc lines and no fields. */
  lemma FixtureStructs()
    ensures DeclsWellFormed(Decls)
    ensures StructsOf(File, Decls) == [StructSpec(PkgPath, "structx", StructName, Doc, [], [], [])]
  {
    HeaderDecls();
    StructsFromThird();
    StructsAfterTwo(File, Decls);
  }

  /** Two leading declarations without structs add nothing. */
  lemma StructsAfterTwo(aw: Astx, decls: seq<Decl>)
    requires |decls| >= 2 && DeclsWellFormed(decls[2..])
    requires DeclWellFormed(decls[0]) && DeclStructs(aw, decls[0]) == []
    requires DeclWellFormed(decls[1]) && DeclStructs(aw, decls[1]) == []
    ensures DeclsWellFormed(decls)
    ensures StructsOf(aw, decls) == StructsOf(aw, decls[2..])
  {
    var d1 := decls[1..];
    assert d1[1..] == decls[2..];
    assert DeclsWellFormed(decls) by {
      forall i | 2 <= i < |decls| ensures DeclWellFormed(decls[i]) {
        assert decls[i] == decls[2..][i - 2];
      }
    }
    assert StructsOf(aw, d1) == [] + StructsOf(aw, decls[2..]);
    assert StructsOf(aw, decls) == [] + StructsOf(aw, d1);
  }

  /** The import and the undocumented interface yield no structs. */
  lemma HeaderDecls()
    ensures DeclWellFormed(Decls[0]) && DeclStructs(File, Decls[0]) == []
    ensures DeclWellFormed(Decls[1]) && DeclStructs(File, Decls[1]) == []
  {
    UndocumentedGroup(File, Decls[0].specs);
    UndocumentedGroup(File, Decls[1].specs);
  }

  /** From the documented struct's group on, that struct is all there is. */
  lemma StructsFromThird()
    ensures DeclsWellFormed(Decls[2..])
    ensures StructsOf(File, Decls[2..]) == [StructSpec(PkgPath, "structx", StructName, Doc, [], [], [])]
  {
    var s := StructSpec(PkgPath, "structx", StructName, Doc, [], [], []);
    var d2 := Decls[2..];
    assert d2[1..] == Decls[3..];
    NoGenDecls(File, d2[1..]);
    OneStructGroup(File, Doc, StructName);
    assert DeclStructs(File, d2[0]) == [s];
    StructsOfHead(File, d2);
    assert [s] + [] == [s];
  }

  /** The structs of a run of declarations: those of the first, then those
      of the rest. */
  lemma StructsOfHead(aw: Astx, decls: seq<Decl>)
    requires |decls| > 0 && DeclWellFormed(decls[0]) && DeclsWellFormed(decls[1..])
    ensures DeclsWellFormed(decls)
    ensures StructsOf(aw, decls) == DeclStructs(aw, decls[0]) + StructsOf(aw, decls[1..])
  {
    forall i | 1 <= i < |decls| ensures DeclWellFormed(decls[i]) {
      assert decls[i] == decls[1..][i - 1];
    }
  }

  /** A group without a doc comment yields no structs. */
  lemma {:induction false} UndocumentedGroup(aw: Astx, specs: seq<Spec>)
    ensures SpecStructs(aw, None, specs) == []
    decreases |specs|
  {
    if |specs| > 0 {
      UndocumentedGroup(aw, specs[1..]);
    }
  }

  /** A documented group declaring one empty struct yields exactly that
      struct, carrying the group's doc lines. */
  lemma OneStructGroup(aw: Astx, doc: seq<string>, name: string)
    ensures DeclWellFormed(GenDecl(Some(doc), [TypeSpec(None, name, StructType([]))]))
    ensures DeclStructs(aw, GenDecl(Some(doc), [TypeSpec(None, name, StructType([]))]))
         == [StructSpec(aw.pkg, aw.pkgName, name, doc, [], [], [])]
  {
    var specs := [TypeSpec(None, name, StructType([]))];
    assert SpecWellFormed(specs[0]);
    assert specs[1..] == [];
    assert SpecStructs(aw, Some(doc), specs) == [ParserStruct(aw, doc, name, [])] + SpecStructs(aw, Some(doc), []);
  }

  /** Declarations without a type declaration yield no structs. */
  lemma {:induction false} NoGenDecls(aw: Astx, decls: seq<Decl>)
    requires forall i :: 0 <= i < |decls| ==> !decls[i].GenDecl?
    ensures DeclsWellFormed(decls)
    ensures StructsOf(aw, decls) == []
    decreases |decls|
  {
    if |decls| > 0 {
      NoGenDecls(aw, decls[1..]);
    }
  }

  /** A method whose one receiver is `T` or `*T` belongs to T. */
  lemma OwnMethod(pkg: string, d: Decl, name: string)
    requires d.FuncDecl? && d.recv.Some? && |d.recv.value| == 1
    requires ReceiverBase(d.recv.value[0].fieldType) == name
    ensures DeclMethods(pkg, d, name) == [MethodFor(pkg, d, name)]
  {
    var recv := d.recv.value;
    assert DeclMethods(pkg, d, name) == RecvMethods(pkg, d, recv, name);
    assert recv[1..] == [];
    assert RecvMethods(pkg, d, recv[1..], name) == [];
  }

  /** Each of the six function declarations is a method of the struct. */
  lemma FixtureReceivers()
    ensures forall i :: 3 <= i < |Decls| ==> Decls[i].FuncDecl?
    ensures forall i :: 3 <= i < |Decls| ==>
              DeclMethods(PkgPath, Decls[i], StructName) == [MethodFor(PkgPath, Decls[i], StructName)]
  {
    forall i | 3 <= i < |Decls|
      ensures Decls[i].FuncDecl?
      ensures DeclMethods(PkgPath, Decls[i], StructName) == [MethodFor(PkgPath, Decls[i], StructName)]
    {
      var t := Decls[i].recv.value[0].fieldType;
      assert t == Ident(StructName) || t == Star(Ident(StructName));
      OwnMethod(PkgPath, Decls[i], StructName);
    }
  }

  /** When every declaration contributes exactly its own method, MethodsFor
      lists them all, in order. */
  lemma {:induction false} MethodsForEach(pkg: string, decls: seq<Decl>, name: string)
    requires forall i :: 0 <= i < |decls| ==> decls[i].FuncDecl?
    requires forall i {:trigger DeclMethods(pkg, decls[i], name)} :: 0 <= i < |decls| ==>
               DeclMethods(pkg, decls[i], name) == [MethodFor(pkg, decls[i], name)]
    ensures |MethodsFor(pkg, decls, name)| == |decls|
    ensures forall i {:trigger MethodsFor(pkg, decls, name)[i]} :: 0 <= i < |decls| ==>
              MethodsFor(pkg, decls, name)[i] == MethodFor(pkg, decls[i], name)
    decreases |decls|
  {
    if |decls| > 0 {
      var ys := decls[1..];
      MethodsForEach(pkg, ys, name);
      var rest := MethodsFor(pkg, ys, name);
      var ms := MethodsFor(pkg, decls, name);
      var head := DeclMethods(pkg, decls[0], name);
      assert ms == head + rest;
      assert head == [MethodFor(pkg, decls[0], name)];
      forall i | 0 <= i < |decls|
        ensures ms[i] == MethodFor(pkg, decls[i], name)
      {
        if i == 0 {
          assert ms[0] == head[0];
        } else {
          assert ms[i] == rest[i - 1];
          assert ys[i - 1] == decls[i];
        }
      }
    }
  }

  /** All six methods belong to HelloServiceImpl, value receiver or not, in
      declaration order. */
  lemma FixtureMethods()
    ensures |MethodsFor(PkgPath, Decls, StructName)| == 6
    ensures forall i :: 0 <= i < 6 ==> MethodsFor(PkgPath, Decls, StructName)[i] == MethodFor(PkgPath, Decls[i + 3], StructName)
  {
    var tail := Decls[3..];
    FixtureReceivers();
    assert forall i :: 0 <= i < |tail| ==> tail[i] == Decls[i + 3];
    MethodsForEach(PkgPath, tail, StructName);
    MethodsAfterGroups(PkgPath, Decls, StructName);
  }

  /** Three leading general declarations contribute no methods. */
  lemma MethodsAfterGroups(pkg: string, decls: seq<Decl>, name: string)
    requires |decls| >= 3 && decls[0].GenDecl? && decls[1].GenDecl? && decls[2].GenDecl?
    ensures MethodsFor(pkg, decls, name) == MethodsFor(pkg, decls[3..], name)
  {
    var d1 := decls[1..];
    var d2 := d1[1..];
    assert d2[1..] == decls[3..];
    assert MethodsFor(pkg, d2, name) == [] + MethodsFor(pkg, decls[3..], name);
    assert MethodsFor(pkg, d1, name) == [] + MethodsFor(pkg, d2, name);
    assert MethodsFor(pkg, decls, name) == [] + MethodsFor(pkg, d1, name);
  }

  /** The pointer parameter of MultiLineFunc is recorded as `int` with the
      pointer flag set; the parameter types are resolved per name. */
  lemma MultiLineFuncParams()
    ensures MethodFor(PkgPath, Decls[4], StructName).params ==
              [ParamSpec(PkgPath, "MultiLineFunc", "name", false, "string"),
               ParamSpec(PkgPath, "MultiLineFunc", "age", true, "int")]
    ensures |MethodFor(PkgPath, Decls[4], StructName).results| == 2
  {
    var d := Decls[4];
    var params := d.params;
    var name := ParamSpec(PkgPath, "MultiLineFunc", "name", false, "string");
    var age := ParamSpec(PkgPath, "MultiLineFunc", "age", true, "int");
    assert d.name == "MultiLineFunc";
    assert params == [Param("name", Str), Param("age", Star(Ident("int")))];
    assert GroupParams(PkgPath, "MultiLineFunc", params[0]) == [name];
    assert GroupParams(PkgPath, "MultiLineFunc", params[1]) == [age];
    assert params[1..][1..] == [];
    assert ParamsOf(PkgPath, "MultiLineFunc", params[1..][1..]) == [];
    assert ParamsOf(PkgPath, "MultiLineFunc", params[1..]) == [age] + [];
    assert ParamsOf(PkgPath, "MultiLineFunc", params) == [name] + ([age] + []);
  }

  /** A doc comment of one description line and two annotation lines
      yields the two annotations, in order. */
  lemma TwoAnnotations(pkg: string, alias: string, first: string, a: string, b: string, ex: RegexpExtraction)
    requires !IsAnnotationLine(first) && IsAnnotationLine(a) && IsAnnotationLine(b)
    ensures AnnotationsOf(pkg, alias, [first, a, b], ex) == [AnnotationFor(pkg, alias, a, ex), AnnotationFor(pkg, alias, b, ex)]
  {
    var doc := [first, a, b];
    assert doc[1..] == [a, b];
    assert doc[1..][1..] == [b];
    assert doc[1..][1..][1..] == [];
  }

  /** The description line is not an annotation line. */
  lemma DescriptionIsNoAnnotation()
    ensures !IsAnnotationLine("// " + Description)
  {
    assert ("// " + Description)[3..] == Description;
    assert Description[0] == StructName[0] == 'H';
  }

  /** The two annotation lines of the struct's doc comment, in order, with
      the values the regexpx tests pin down. */
  lemma FixtureAnnotations(ex: RegexpExtraction)
    requires AgreesWithRegexpTests(ex)
    ensures var annos := AnnotationsOf(PkgPath, "structx", Doc, ex);
      && |annos| == 2
      && annos[0].anno == "// " + ServiceText && annos[0].values == ServiceValue
      && annos[1].anno == "// " + ScanText && annos[1].values == ScanValue
  {
    FixtureValues(PkgPath, "structx", ex);
    DescriptionIsNoAnnotation();
    TwoAnnotations(PkgPath, "structx", "// " + Description, "// " + ServiceText, "// " + ScanText, ex);
  }

  /** ParseStructs on a file with exactly one documented struct: that
      struct, with the file's methods for it and its annotations. */
  lemma ParseOneStruct(aw: Astx, ex: RegexpExtraction, s: StructSpec)
    requires DeclsWellFormed(aw.ast.decls)
    requires StructsOf(aw, aw.ast.decls) == [s]
    ensures ParseStructs(aw, ex).structs ==
              [s.(methods := s.methods + MethodsFor(aw.pkgPath, aw.ast.decls, s.name),
                  annotations := AnnotationsOf(s.pkg, s.alias, s.comments, ex))]
  {
  }

  /** The first and the last method declaration of the file. */
  lemma FirstAndLastMethod()
    ensures MethodFor(PkgPath, Decls[3], StructName).name == "SayHello"
    ensures MethodFor(PkgPath, Decls[8], StructName).name == "MapReturnFunc"
  {
    var d3 := Decls[3];
    var d8 := Decls[8];
    assert d3.name == "SayHello";
    assert d8.name == "MapReturnFunc";
  }

  /** End to end: the file yields one PackageSpec holding the one struct,
      with its six methods in declaration order and its two annotations. */
  lemma FixtureParse(ex: RegexpExtraction)
    requires AgreesWithRegexpTests(ex)
    ensures DeclsWellFormed(Decls)
    ensures var ps := ParseStructs(File, ex);
      && |ps.structs| == 1
      && ps.structs[0].name == StructName
      && |ps.structs[0].methods| == 6
      && ps.structs[0].methods[0].name == "SayHello"
      && |ps.structs[0].methods[1].params| == 2
      && ps.structs[0].methods[1].params[1] == ParamSpec(PkgPath, "MultiLineFunc", "age", true, "int")
      && ps.structs[0].methods[5].name == "MapReturnFunc"
      && |ps.structs[0].annotations| == 2
      && ps.structs[0].annotations[0].values == ServiceValue
      && ps.structs[0].annotations[1].values == ScanValue
  {
    var s := StructSpec(PkgPath, "structx", StructName, Doc, [], [], []);
    FixtureStructs();
    FixtureMethods();
    MultiLineFuncParams();
    FirstAndLastMethod();
    FixtureAnnotations(ex);
    ParseOneStruct(File, ex, s);
    var ms := MethodsFor(PkgPath, Decls, StructName);
    assert [] + ms == ms;
  }

  /** Parse over the package of that one file keeps it: one PackageSpec. */
  lemma FixturePackage(ex: RegexpExtraction)
    requires AgreesWithRegexpTests(ex)
    ensures FilesWellFormed([File])
    ensures Parse(LoadedPackage(PkgPath, "structx", PkgPath, [File]), ex).pkgs == [ParseStructs(File, ex)]
  {
    FixtureParse(ex);
    KeepOne(File, ex);
  }

  /** A file with comments that yields a struct is kept on its own. */
  lemma KeepOne(f: Astx, ex: RegexpExtraction)
    requires f.ast.comments.Some? && DeclsWellFormed(f.ast.decls)
    requires |ParseStructs(f, ex).structs| > 0
    ensures FilesWellFormed([f])
    ensures KeptPackages([f], ex) == [ParseStructs(f, ex)]
  {
    var files := [f];
    assert files[1..] == [];
    assert KeptPackages(files[1..], ex) == [];
  }
}

=== FILE: goast.dfy ===
/** The slice of Go's syntax tree that the extractor looks at.

    Only the node shapes the extractor switches on are distinguished; every
    other shape collapses into an `Other`/`OtherType`/`OtherSpec`/`BadDecl`
    case. A nil pointer of the Go tree is `None`; a nil slice is the empty
    sequence (ranging over either does nothing).
 */
module GoAst {

  datatype Option<+T> = None | Some(value: T)

  /** A type expression: `T`, `*X`, `X.Sel`, or anything else (slices, maps,
      channels, function types, generic instantiations, ...). */
  datatype Expr =
    | Ident(name: string)
    | Star(x: Expr)
    | Selector(x: Expr, sel: string)
    | Other

  /** One entry of a field list (struct body, receiver, parameters, results).
      `tag` is the raw tag literal, backquotes included. */
  datatype Field = Field(names: seq<string>, fieldType: Expr, tag: Option<string>)

  /** The right-hand side of a type declaration. */
  datatype TypeBody =
    | StructType(fields: seq<Field>)
    | InterfaceType
    | OtherType

  /** A spec inside a `type`/`var`/`const`/`import` group. A type spec may carry
      a doc comment of its own, distinct from the group's. */
  datatype Spec =
    | TypeSpec(doc: Option<seq<string>>, name: string, body: TypeBody)
    | OtherSpec

  /** A top-level declaration. Doc comments are the texts of the comments of
      the attached comment group, each including its comment leader (`//` for line comments). */
  datatype Decl =
    | GenDecl(doc: Option<seq<string>>, specs: seq<Spec>)
    | FuncDecl(doc: Option<seq<string>>, recv: Option<seq<Field>>, name: string,
               params: seq<Field>, results: seq<Field>)
    | BadDecl

  /** A parsed file: all its comment groups (nil when it has none) and its
      declarations in source order. */
  datatype File = File(comments: Option<seq<seq<string>>>, decls: seq<Decl>)

  /** A file together with the package facts the loader attached to it:
      `pkg` is the wrapper's own package string, `pkgPath` and `pkgName` are
      the loader package's import path and short name. */
  datatype Astx = Astx(ast: File, pkg: string, pkgPath: string, pkgName: string)

  /** A package as the loader hands it over. */
  datatype LoadedPackage = LoadedPackage(id: string, name: string, pkgPath: string, files: seq<Astx>)

  /** The lines of an optional doc comment; a missing one has none. */
  function DocLines(doc: Option<seq<string>>): (lines: seq<string>)
    ensures doc.Some? ==> lines == doc.value
    ensures doc.None? ==> lines == []
  {
    match doc
    case Some(ls) => ls
    case None => []
  }
}

=== FILE: importaliaser.dfy ===
/** The import aliaser: a pair of maps from import path to alias and back,
    and NeedImport, which returns the alias of a path, inventing a fresh one
    on first use.

    The Go type mutates its maps in place; here NeedImport returns the new
    pair of maps along with the alias.
 */
module ImportAliaser {
  import opened Strings

  datatype Imports = Imports(byPath: map<string, string>, byAlias: map<string, string>)

  const Empty := Imports(map[], map[])

  const VendorMarker := "/vendor/"

  /** The two maps are inverse to each other. */
  ghost predicate Bijective(its: Imports) {
    && (forall p :: p in its.byPath ==> its.byPath[p] in its.byAlias && its.byAlias[its.byPath[p]] == p)
    && (forall a :: a in its.byAlias ==> its.byAlias[a] in its.byPath && its.byPath[its.byAlias[a]] == a)
  }

  /** Two distinct bound paths never share an alias. */
  lemma BijectiveInjective(its: Imports, p: string, q: string)
    requires Bijective(its)
    requires p in its.byPath && q in its.byPath && p != q
    ensures its.byPath[p] != its.byPath[q]
  {
  }

  /** Only the text after the last `/vendor/` counts. */
  function StripVendor(importPath: string): (p: string)
    ensures |p| <= |importPath| && p == importPath[|importPath| - |p|..]
    ensures forall j :: !OccursAt(p, VendorMarker, j)
    ensures LastIndex(importPath, VendorMarker) == -1 ==> p == importPath
    ensures LastIndex(importPath, VendorMarker) != -1 ==>
              && OccursAt(importPath, VendorMarker, |importPath| - |p| - 8)
              && forall j :: |importPath| - |p| - 8 < j ==> !OccursAt(importPath, VendorMarker, j)
  {
    var ind := LastIndex(importPath, VendorMarker);
    if ind == -1 then importPath
    else
      var p := importPath[ind + 8..];
      assert forall j :: OccursAt(p, VendorMarker, j) ==> OccursAt(importPath, VendorMarker, ind + 8 + j) by {
        forall j | OccursAt(p, VendorMarker, j)
          ensures OccursAt(importPath, VendorMarker, ind + 8 + j)
        {
          assert |VendorMarker| == 8;
          assert p[j..j + 8] == VendorMarker;
          forall k | 0 <= k < 8
            ensures importPath[ind + 8 + j + k] == VendorMarker[k]
          {
            assert importPath[ind + 8 + j + k] == p[j + k] == p[j..j + 8][k];
          }
          assert importPath[ind + 8 + j..ind + 8 + j + 8] == VendorMarker;
        }
      }
      p
  }

  /** Text an alias may be: identifier characters only, not starting with a
      digit (it may be empty). */
  predicate AliasText(a: string) {
    (forall i :: 0 <= i < |a| ==> IsWordChar(a[i])) && (|a| > 0 ==> !IsDigit(a[0]))
  }

  /** A path segment turned into alias material. */
  function Word(segment: string): (w: string)
    ensures AliasText(w)
    ensures |w| <= |segment|
  {
    var d := DropLeadingDigits(segment);
    var w := Sanitize(d);
    assert |w| > 0 ==> !IsDigit(w[0]) by {
      if |w| > 0 {
        assert !IsDigit(d[0]);
        if IsWordChar(d[0]) { assert w[0] == d[0]; } else { assert w[0] == '_'; }
      }
    }
    w
  }

  /** The first `k` characters of `segment` are a maximal run of digits. */
  ghost predicate DigitRun(segment: string, k: int) {
    && 0 <= k <= |segment|
    && (forall i :: 0 <= i < k ==> IsDigit(segment[i]))
    && (k < |segment| ==> !IsDigit(segment[k]))
  }

  /** `w` is `segment` from offset `k` on, each character kept when it is a
      letter, digit or `_` and turned into `_` otherwise. */
  ghost predicate SanitizedFrom(segment: string, k: int, w: string) {
    && 0 <= k
    && k + |w| == |segment|
    && forall i {:trigger w[i]} :: 0 <= i < |w| ==>
         w[i] == if IsWordChar(segment[k + i]) then segment[k + i] else '_'
  }

  /** What a word made from `segment` looks like: the characters dropped
      in front are exactly a run of digits, not followed by another digit,
      and every remaining character is kept when it is a letter, digit or
      `_` and becomes `_` otherwise. */
  ghost predicate WordShaped(segment: string, w: string) {
    && |w| <= |segment|
    && DigitRun(segment, |segment| - |w|)
    && SanitizedFrom(segment, |segment| - |w|, w)
  }

  /** What Word keeps: it drops exactly the run of leading digits and maps
      every remaining rune to itself when it is a letter, digit or `_`, and
      to `_` otherwise. */
  lemma WordShape(segment: string)
    ensures WordShaped(segment, Word(segment))
  {
    var d := DropLeadingDigits(segment);
    var k := |segment| - |d|;
    DropShape(segment);
    SanitizeShifted(segment, d, k);
    WordDefinition(segment);
  }

  lemma WordDefinition(segment: string)
    ensures Word(segment) == Sanitize(DropLeadingDigits(segment))
  {
  }

  /** Sanitizing a copy of `segment` from offset `k` maps each character
      of the segment from `k` on. */
  lemma SanitizeShifted(segment: string, d: string, k: int)
    requires 0 <= k && k + |d| == |segment|
    requires forall i {:trigger d[i]} :: 0 <= i < |d| ==> d[i] == segment[k + i]
    ensures SanitizedFrom(segment, k, Sanitize(d))
  {
    var r := Sanitize(d);
    forall i | 0 <= i < |r|
      ensures r[i] == if IsWordChar(segment[k + i]) then segment[k + i] else '_'
    {
      assert d[i] == segment[k + i];
    }
  }

  /** DropLeadingDigits removes a maximal run of digits and keeps the rest
      in place. */
  lemma DropShape(segment: string)
    ensures var d := DropLeadingDigits(segment); var k := |segment| - |d|;
      && DigitRun(segment, k)
      && forall i {:trigger d[i]} :: 0 <= i < |d| ==> d[i] == segment[k + i]
  {
    var d := DropLeadingDigits(segment);
    var k := |segment| - |d|;
    assert d == segment[k..];
    if k < |segment| {
      assert d[0] == segment[k];
    }
  }

  lemma AliasTextConcat(w: string, a: string)
    requires AliasText(w) && AliasText(a)
    ensures AliasText(w + a)
  {
    if |w| == 0 {
      assert w + a == a;
    }
  }

  /** The keys of `byAlias` longer than `alias`: the collision walk cannot
      go on once it has outgrown them all. */
  ghost function LongerKeys(byAlias: map<string, string>, alias: string): set<string> {
    set k | k in byAlias && |k| > |alias|
  }

  /** A colliding candidate longer than `alias` leaves fewer longer keys. */
  lemma LongerKeysShrink(byAlias: map<string, string>, alias: string, candidate: string)
    requires candidate in byAlias && |candidate| > |alias|
    ensures LongerKeys(byAlias, candidate) < LongerKeys(byAlias, alias)
  {
    assert candidate in LongerKeys(byAlias, alias);
    assert candidate !in LongerKeys(byAlias, candidate);
  }

  /** One candidate of the walk is alias text again. */
  lemma CandidateText(alias: string, grow: bool, word: string)
    requires AliasText(alias) && AliasText(word)
    ensures AliasText(word + (if grow then alias + "x" else alias))
  {
    AliasTextConcat(alias, "x");
    AliasTextConcat(word, if grow then alias + "x" else alias);
  }

  /** The collision walk, one iteration per call: lengthen `alias` (by an `x`
      once the path segments are used up), prepend the current segment, step
      to the parent segment, and stop as soon as the alias is free or already
      belongs to `importPath`.

      Termination: while segments remain, `restPath` shrinks; afterwards every
      call lengthens the alias, which then must still be a key of the finite
      `byAlias` to go on. */
  function Walk(byAlias: map<string, string>, importPath: string,
                restPath: string, nextWord: string, alias: string): (r: string)
    requires AliasText(alias)
    ensures AliasText(r)
    ensures r !in byAlias || byAlias[r] == importPath
    ensures |r| >= |alias|
    decreases |restPath|, LongerKeys(byAlias, alias)
  {
    var word := Word(nextWord);
    var candidate := word + (if restPath == "" then alias + "x" else alias);
    CandidateText(alias, restPath == "", word);
    if candidate in byAlias && byAlias[candidate] != importPath then
      if restPath == "" then
        LongerKeysShrink(byAlias, alias, candidate);
        Walk(byAlias, importPath, restPath, word, candidate)
      else
        var (rest', next') := PathSplit(restPath[..|restPath| - 1]);
        Walk(byAlias, importPath, rest', next', candidate)
    else
      candidate
  }

  /** The alias the walk tries at one step: the current segment's word in
      front of the alias so far, lengthened by `x` once the segments are used
      up. */
  function StepCandidate(restPath: string, nextWord: string, alias: string): string {
    Word(nextWord) + (if restPath == "" then alias + "x" else alias)
  }

  /** A step whose candidate is free, or already bound to the same path,
      ends the walk with that candidate. */
  lemma WalkStops(byAlias: map<string, string>, importPath: string,
                  restPath: string, nextWord: string, alias: string)
    requires AliasText(alias)
    requires var c := StepCandidate(restPath, nextWord, alias); c !in byAlias || byAlias[c] == importPath
    ensures Walk(byAlias, importPath, restPath, nextWord, alias) == StepCandidate(restPath, nextWord, alias)
  {
  }

  /** A step whose candidate belongs to another path goes on from that
      candidate, one segment further up (or with the same sanitized word
      once the segments are used up). */
  lemma WalkContinues(byAlias: map<string, string>, importPath: string,
                      restPath: string, nextWord: string, alias: string)
    requires AliasText(alias)
    requires var c := StepCandidate(restPath, nextWord, alias); c in byAlias && byAlias[c] != importPath
    ensures var c := StepCandidate(restPath, nextWord, alias);
      AliasText(c) &&
      Walk(byAlias, importPath, restPath, nextWord, alias) ==
        if restPath == "" then Walk(byAlias, importPath, restPath, Word(nextWord), c)
        else Walk(byAlias, importPath, PathSplit(restPath[..|restPath| - 1]).0,
                  PathSplit(restPath[..|restPath| - 1]).1, c)
  {
    CandidateText(alias, restPath == "", Word(nextWord));
  }

  /** A taken candidate with segments left moves the walk one segment up
      the directory part. */
  lemma WalkUp(byAlias: map<string, string>, importPath: string,
               dir: string, segment: string, nextWord: string, alias: string)
    requires AliasText(alias)
    requires '/' !in segment && (dir == "" || dir[|dir| - 1] == '/')
    requires var c := Word(nextWord) + alias; c in byAlias && byAlias[c] != importPath
    ensures AliasText(Word(nextWord) + alias)
    ensures Walk(byAlias, importPath, dir + segment + "/", nextWord, alias) ==
            Walk(byAlias, importPath, dir, segment, Word(nextWord) + alias)
  {
    TrimSlash(dir + segment);
    PathSplitOf(dir, segment);
    WalkContinues(byAlias, importPath, dir + segment + "/", nextWord, alias);
  }

  lemma TrimSlash(p: string)
    ensures (p + "/")[..|p + "/"| - 1] == p
  {
  }

  /** The outcome of NeedImport: the updated maps and the alias. */
  datatype Outcome = Outcome(imports: Imports, alias: string)

  /** The maps are inverse and every alias is alias text. */
  ghost predicate Invariant(its: Imports) {
    Bijective(its) && forall a :: a in its.byAlias ==> AliasText(a)
  }

  /** NeedImport. A bound path gets its alias back and nothing changes; a
      new path gets an alias made of identifier characters that no other
      path holds (when the maps were inverse), and exactly that pair is added
      in both directions, keeping the maps inverse. */
  function NeedImport(its: Imports, importPath: string): (r: Outcome)
    ensures StripVendor(importPath) !in its.byPath ==> AliasText(r.alias)
    ensures var p := StripVendor(importPath);
      && r.imports.byPath == its.byPath[p := r.alias]
      && (p in its.byPath ==> r == Outcome(its, its.byPath[p]))
      && (p !in its.byPath ==> r.imports.byAlias == its.byAlias[r.alias := p])
      && (p !in its.byPath && Bijective(its) ==> r.alias !in its.byAlias)
    ensures Bijective(its) ==> Bijective(r.imports)
    ensures Invariant(its) ==> Invariant(r.imports) && AliasText(r.alias)
  {
    var p := StripVendor(importPath);
    if p in its.byPath then
      Outcome(its, its.byPath[p])
    else
      var (restPath, nextWord) := PathSplit(p);
      var alias := Walk(its.byAlias, p, restPath, nextWord, "");
      var next := Imports(its.byPath[p := alias], its.byAlias[alias := p]);
      assert Bijective(its) ==> alias !in its.byAlias by {
        if Bijective(its) {
          FreshAlias(its, p, alias);
        }
      }
      Outcome(next, alias)
  }

  /** Under inverse maps, an alias that is free or already points at an
      unbound path is free. */
  lemma FreshAlias(its: Imports, p: string, a: string)
    requires Bijective(its)
    requires p !in its.byPath
    requires a !in its.byAlias || its.byAlias[a] == p
    ensures a !in its.byAlias
  {
  }

  /** Asking again for the same path changes nothing and returns the same
      alias. */
  lemma NeedImportIdempotent(its: Imports, importPath: string)
    ensures var r := NeedImport(its, importPath);
      NeedImport(r.imports, importPath) == r
  {
  }

  /** Two different paths (after vendor stripping), asked for one after the
      other, get different aliases. */
  lemma DistinctPathsDistinctAliases(its: Imports, x: string, y: string)
    requires Bijective(its)
    requires StripVendor(x) != StripVendor(y)
    ensures var r1 := NeedImport(its, x);
      NeedImport(r1.imports, y).alias != r1.alias
  {
    var r1 := NeedImport(its, x);
    var r2 := NeedImport(r1.imports, y);
    var px, py := StripVendor(x), StripVendor(y);
    assert r1.imports.byPath[px] == r1.alias;
    assert r2.imports.byPath[px] == r1.alias;
    assert r2.imports.byPath[py] == r2.alias;
    BijectiveInjective(r2.imports, px, py);
  }

  /** The first candidate: the sanitized last segment, with an `x` appended
      when the path has no `/`. When it is free it is the answer. */
  function FirstCandidate(p: string): string {
    var (restPath, nextWord) := PathSplit(p);
    Word(nextWord) + (if restPath == "" then "x" else "")
  }

  lemma FreeFirstCandidate(its: Imports, importPath: string)
    requires StripVendor(importPath) !in its.byPath
    requires FirstCandidate(StripVendor(importPath)) !in its.byAlias
    ensures NeedImport(its, importPath).alias == FirstCandidate(StripVendor(importPath))
  {
    var p := StripVendor(importPath);
    var (restPath, nextWord) := PathSplit(p);
    assert NeedImport(its, importPath).alias == Walk(its.byAlias, p, restPath, nextWord, "");
    var grown := if restPath == "" then "" + "x" else "";
    assert grown == if restPath == "" then "x" else "";
    assert Word(nextWord) + grown == FirstCandidate(p);
  }

  /** A marker found past the one after `prefix` lies inside `q`. */
  lemma MarkerAfter(prefix: string, q: string, j: int)
    requires j >= |prefix| + 8
    ensures OccursAt(prefix + VendorMarker + q, VendorMarker, j) ==> OccursAt(q, VendorMarker, j - |prefix| - 8)
  {
    var s := prefix + VendorMarker + q;
    var k := |prefix| + 8;
    assert s[k..] == q;
    if j + 8 <= |s| {
      assert s[j..j + 8] == q[j - k..j - k + 8];
    }
  }

  /** A marker starting inside the one after `prefix` can only start at its
      closing `/`, and then `q` begins with `vendor/`. */
  lemma MarkerInside(prefix: string, q: string, j: int)
    requires |prefix| < j < |prefix| + 8
    ensures OccursAt(prefix + VendorMarker + q, VendorMarker, j) ==> HasPrefix(q, "vendor/")
  {
    var s := prefix + VendorMarker + q;
    var k := |prefix| + 8;
    assert s[|prefix|..k] == VendorMarker;
    assert s[k..] == q;
    if OccursAt(s, VendorMarker, j) {
      assert s[j] == s[j..j + 8][0] == '/';
      assert s[j] == s[|prefix|..k][j - |prefix|] == VendorMarker[j - |prefix|];
      assert j == k - 1;
      assert q[..7] == s[k..k + 7] == s[j..j + 8][1..];
    }
  }

  /** A vendored path and its unvendored form share their alias. */
  lemma VendorStripped(its: Imports, prefix: string, q: string)
    requires forall j :: !OccursAt(q, VendorMarker, j)
    requires !HasPrefix(q, "vendor/")
    ensures NeedImport(its, prefix + VendorMarker + q) == NeedImport(its, q)
  {
    var s := prefix + VendorMarker + q;
    var k := |prefix| + 8;
    assert s[|prefix|..k] == VendorMarker;
    assert OccursAt(s, VendorMarker, |prefix|);
    forall j | j > |prefix|
      ensures !OccursAt(s, VendorMarker, j)
    {
      if j >= k {
        MarkerAfter(prefix, q, j);
      } else {
        MarkerInside(prefix, q, j);
      }
    }
    var ind := LastIndex(s, VendorMarker);
    assert ind == |prefix|;
    assert s[ind + 8..] == q;
    assert LastIndex(q, VendorMarker) == -1;
  }

  /** path.Split is determined by its contract: a `/`-free tail after a
      prefix that is empty or ends in `/`. */
  lemma PathSplitOf(dir: string, file: string)
    requires '/' !in file
    requires dir == "" || dir[|dir| - 1] == '/'
    ensures PathSplit(dir + file) == (dir, file)
  {
    var p := dir + file;
    var (d, f) := PathSplit(p);
    assert dir != "" ==> p[|dir| - 1] == '/';
    assert d != "" ==> p[|d| - 1] == '/';
    assert |d| == |dir|;
    assert d == p[..|d|] == dir;
  }

  /** A segment made of identifier characters, not starting with a digit,
      is its own alias material. */
  lemma WordOfPlain(segment: string)
    requires AliasText(segment)
    ensures Word(segment) == segment
  {
    assert DropLeadingDigits(segment) == segment;
  }

  /** Every `/vendor/` has a `v` right after its first character. */
  lemma MarkerHasV()
    ensures forall s, j :: OccursAt(s, VendorMarker, j) ==> s[j + 1] == 'v'
  {
    forall s, j | OccursAt(s, VendorMarker, j)
      ensures s[j + 1] == 'v'
    {
      assert s[j + 1] == s[j..j + 8][1];
    }
  }

  /** A path without a `v` has no `/vendor/` and is its own key. */
  lemma NoVendor(p: string)
    requires 'v' !in p
    ensures StripVendor(p) == p
  {
    MarkerHasV();
  }

  /** On empty maps `a/b/foo` gets `foo`, registered both ways. */
  lemma PlainPathExample()
    ensures NeedImport(Empty, "a/b/foo")
         == Outcome(Imports(map["a/b/foo" := "foo"], map["foo" := "a/b/foo"]), "foo")
  {
    NoVendor("a/b/foo");
    PathSplitOf("a/b/", "foo");
    assert "a/b/" + "foo" == "a/b/foo";
    WordOfPlain("foo");
    assert FirstCandidate("a/b/foo") == "foo" + "";
    FreeFirstCandidate(Empty, "a/b/foo");
    var r := NeedImport(Empty, "a/b/foo");
    assert StripVendor("a/b/foo") == "a/b/foo";
    assert r.alias == "foo";
    assert r.imports.byPath == Empty.byPath["a/b/foo" := "foo"];
    assert r.imports.byPath == map["a/b/foo" := "foo"];
    assert r.imports.byAlias == map["foo" := "a/b/foo"];
  }

  /** `my-pkg` becomes `my_pkg`. */
  lemma DashedWord()
    ensures Word("my-pkg") == "my_pkg"
  {
    var seg := "my-pkg";
    NoLeadingDigitWord(seg);
    var w := Sanitize(seg);
    assert |w| == 6;
    assert w[0] == 'm' && w[1] == 'y' && w[2] == '_';
    assert w[3] == 'p' && w[4] == 'k' && w[5] == 'g';
    assert w == "my_pkg";
  }

  /** A segment that does not start with a digit is only sanitized. */
  lemma NoLeadingDigitWord(seg: string)
    requires |seg| > 0 && !IsDigit(seg[0])
    ensures Word(seg) == Sanitize(seg)
  {
    WordDefinition(seg);
  }

  /** On empty maps `a/b/my-pkg` gets `my_pkg`: the dash is not an
      identifier character. */
  lemma DashedPathExample()
    ensures NeedImport(Empty, "a/b/my-pkg").alias == "my_pkg"
  {
    NoVendor("a/b/my-pkg");
    PathSplitOf("a/b/", "my-pkg");
    assert "a/b/" + "my-pkg" == "a/b/my-pkg";
    DashedWord();
    assert FirstCandidate("a/b/my-pkg") == "my_pkg" + "";
    FreeFirstCandidate(Empty, "a/b/my-pkg");
  }

  /** On empty maps `fmt` gets `fmtx`: a path without `/` lengthens its
      only segment. */
  lemma SingleSegmentExample()
    ensures NeedImport(Empty, "fmt").alias == "fmtx"
  {
    NoVendor("fmt");
    PathSplitOf("", "fmt");
    assert "" + "fmt" == "fmt";
    WordOfPlain("fmt");
    assert FirstCandidate("fmt") == "fmt" + "x";
    FreeFirstCandidate(Empty, "fmt");
  }

  /** On empty maps `a/123` gets the empty alias: its segment is all
      digits. */
  lemma DigitPathAlias()
    ensures NeedImport(Empty, "a/123").alias == ""
  {
    NoVendor("a/123");
    PathSplitOf("a/", "123");
    assert "a/" + "123" == "a/123";
    DigitWord();
    assert FirstCandidate("a/123") == "" + "";
    FreeFirstCandidate(Empty, "a/123");
  }

  /** A segment of digits only leaves no alias material. */
  lemma DigitWord()
    ensures Word("123") == ""
  {
    var seg := "123";
    assert seg[1..] == "23" && seg[1..][1..] == "3" && seg[1..][1..][1..] == "";
    assert DropLeadingDigits("3") == DropLeadingDigits("");
    assert DropLeadingDigits("23") == DropLeadingDigits("3");
    assert DropLeadingDigits(seg) == DropLeadingDigits("23");
  }

  lemma DigitPathExample()
    ensures NeedImport(Empty, "a/123") == Outcome(Imports(map["a/123" := ""], map["" := "a/123"]), "")
  {
    NoVendor("a/123");
    DigitPathAlias();
    var r := NeedImport(Empty, "a/123");
    assert r.imports.byPath == Empty.byPath["a/123" := ""];
    assert r.imports.byAlias == Empty.byAlias["" := "a/123"];
  }

  /** With `foo` taken by `a/b/foo`, the walk for `z/b/foo` steps to the
      parent segment and settles on `bfoo`. */
  lemma WalkCollision()
    ensures Walk(map["foo" := "a/b/foo"], "z/b/foo", "z/b/", "foo", "") == "bfoo"
  {
    CollisionFirstStep();
    CollisionSecondStep();
  }

  /** `foo` is taken, so the walk moves on to the segment `b`. */
  lemma CollisionFirstStep()
    ensures Walk(map["foo" := "a/b/foo"], "z/b/foo", "z/b/", "foo", "") ==
            Walk(map["foo" := "a/b/foo"], "z/b/foo", "z/", "b", "foo")
  {
    WordOfPlain("foo");
    assert Word("foo") + "" == "foo";
    assert "z/" + "b" + "/" == "z/b/";
    WalkUp(map["foo" := "a/b/foo"], "z/b/foo", "z/", "b", "foo", "");
  }

  /** `bfoo` is free, so the walk ends there. */
  lemma CollisionSecondStep()
    ensures Walk(map["foo" := "a/b/foo"], "z/b/foo", "z/", "b", "foo") == "bfoo"
  {
    WordOfPlain("b");
    assert StepCandidate("z/", "b", "foo") == "bfoo";
    WalkStops(map["foo" := "a/b/foo"], "z/b/foo", "z/", "b", "foo");
  }

  /** With `foo` bound to `a/b/foo`, `z/b/foo` gets `bfoo`. */
  lemma SecondImport()
    ensures NeedImport(Imports(map["a/b/foo" := "foo"], map["foo" := "a/b/foo"]), "z/b/foo").alias == "bfoo"
  {
    var its1 := Imports(map["a/b/foo" := "foo"], map["foo" := "a/b/foo"]);
    NoVendor("z/b/foo");
    PathSplitOf("z/b/", "foo");
    assert "z/b/" + "foo" == "z/b/foo";
    WalkCollision();
    assert NeedImport(its1, "z/b/foo").alias == Walk(its1.byAlias, "z/b/foo", "z/b/", "foo", "");
  }

  /** After `a/b/foo` took `foo`, `z/b/foo` walks up to `bfoo`. */
  lemma CollisionExample()
    ensures var r1 := NeedImport(Empty, "a/b/foo");
      NeedImport(r1.imports, "z/b/foo").alias == "bfoo"
  {
    PlainPathExample();
    SecondImport();
  }
  // ---------------------------------------------------------------------------
  // The empty import path

  /** NeedImport exactly as written. The loop starts from the sentinel
      `otherPath == ""`, so for the empty key (the empty path, or a path
      ending in `/vendor/`) its condition is false at once: the loop body
      never runs and the empty alias is registered, whoever holds it. */
  function NeedImportAsWritten(its: Imports, importPath: string): (r: Outcome)
    ensures StripVendor(importPath) != "" ==> r == NeedImport(its, importPath)
    ensures StripVendor(importPath) == "" && "" !in its.byPath ==>
              r == Outcome(Imports(its.byPath["" := ""], its.byAlias["" := ""]), "")
  {
    var p := StripVendor(importPath);
    if p == "" && p !in its.byPath then
      Outcome(Imports(its.byPath[p := ""], its.byAlias["" := p]), "")
    else
      NeedImport(its, importPath)
  }

  /** The state after `a/123` took the empty alias: inverse maps. */
  lemma DigitPathState()
    ensures NeedImport(Empty, "a/123").imports == Imports(map["a/123" := ""], map["" := "a/123"])
    ensures Invariant(Imports(map["a/123" := ""], map["" := "a/123"]))
  {
    DigitPathExample();
  }

  /** As written, the empty path then takes the empty alias as well: two
      paths share one alias and the maps stop being inverse. */
  lemma EmptyPathSharesAlias()
    ensures var its1 := Imports(map["a/123" := ""], map["" := "a/123"]);
      var r2 := NeedImportAsWritten(its1, "");
      && r2.alias == its1.byPath["a/123"]
      && r2.imports.byPath["a/123"] == r2.imports.byPath[""]
      && !Bijective(r2.imports)
  {
    var its1 := Imports(map["a/123" := ""], map["" := "a/123"]);
    NoVendor("");
    var r2 := NeedImportAsWritten(its1, "");
    assert r2.imports.byPath == map["a/123" := "", "" := ""];
    assert r2.imports.byAlias == map["" := ""];
    assert r2.imports.byAlias[r2.imports.byPath["a/123"]] != "a/123";
  }

  /** A path without a slash is one segment: its first candidate is that
      segment's word followed by `x`. */
  lemma SingleSegmentCandidate(p: string)
    requires '/' !in p
    ensures FirstCandidate(p) == Word(p) + "x"
  {
    var r := PathSplit(p);
    assert r.1 == p;
  }

  /** A single segment that leaves no alias material (empty, or digits
      only) asks for `x` first. */
  lemma BareSegmentCandidate(p: string)
    requires '/' !in p && |Word(p)| == 0
    ensures FirstCandidate(p) == "x"
  {
    SingleSegmentCandidate(p);
    assert Word(p) + "x" == "x";
  }

  /** The corrected walk runs at least once: the empty path asks for `x`. */
  lemma EmptyPathWalks(its: Imports)
    requires "" !in its.byPath && "x" !in its.byAlias
    ensures NeedImport(its, "").alias == "x"
  {
    NoVendor("");
    var p := StripVendor("");
    assert |p| == 0;
    BareSegmentCandidate(p);
    FreeFirstCandidate(its, "");
  }

  /** So the corrected NeedImport gives the empty path a fresh alias where
      the code as written reuses the taken one. */
  lemma EmptyPathCorrected()
    ensures var its1 := Imports(map["a/123" := ""], map["" := "a/123"]);
      NeedImport(its1, "").alias == "x" && "x" !in its1.byAlias
  {
    var its1 := Imports(map["a/123" := ""], map["" := "a/123"]);
    EmptyPathWalks(its1);
  }
}

=== FILE: strings.dfy ===
/** The few functions of Go's `strings`, `path` and `unicode` packages the
    core relies on, on strings seen as sequences of runes. Letters and digits
    are the ASCII ones. */
module Strings {

  /** `pat` occurs in `s` starting at index `i`. */
  predicate OccursAt(s: string, pat: string, i: int) {
    0 <= i && i + |pat| <= |s| && s[i..i + |pat|] == pat
  }

  predicate HasPrefix(s: string, prefix: string) {
    |prefix| <= |s| && s[..|prefix|] == prefix
  }

  predicate IsDigit(c: char) {
    '0' <= c <= '9'
  }

  predicate IsLetter(c: char) {
    ('a' <= c <= 'z') || ('A' <= c <= 'Z')
  }

  /** A character an identifier may contain. */
  predicate IsWordChar(c: char) {
    IsLetter(c) || IsDigit(c) || c == '_'
  }

  /** strings.LastIndex restricted to candidates at or below `k`. */
  function LastIndexUpTo(s: string, pat: string, k: int): (r: int)
    requires -1 <= k <= |s|
    ensures -1 <= r <= k
    ensures r == -1 || OccursAt(s, pat, r)
    ensures forall j :: r < j <= k ==> !OccursAt(s, pat, j)
    decreases k + 1
  {
    if k < 0 then -1
    else if OccursAt(s, pat, k) then k
    else LastIndexUpTo(s, pat, k - 1)
  }

  /** strings.LastIndex: where the last occurrence of `pat` starts, or -1. */
  function LastIndex(s: string, pat: string): (r: int)
    ensures -1 <= r <= |s|
    ensures r == -1 || OccursAt(s, pat, r)
    ensures forall j :: r < j ==> !OccursAt(s, pat, j)
  {
    LastIndexUpTo(s, pat, |s|)
  }

  /** strings.Split with a one-character separator. */
  function Split(s: string, sep: char): (parts: seq<string>)
    ensures |parts| >= 1
    ensures forall i :: 0 <= i < |parts| ==> sep !in parts[i]
    decreases |s|
  {
    if |s| == 0 then [""]
    else
      var rest := Split(s[1..], sep);
      if s[0] == sep then [""] + rest
      else [[s[0]] + rest[0]] + rest[1..]
  }

  /** strings.Join with a one-character separator, on a non-empty list. */
  function Join(parts: seq<string>, sep: char): (s: string)
    requires |parts| >= 1
    decreases |parts|
  {
    if |parts| == 1 then parts[0]
    else parts[0] + [sep] + Join(parts[1..], sep)
  }

  /** Joining the pieces of a split gives the string back. */
  lemma {:induction false} JoinSplit(s: string, sep: char)
    ensures Join(Split(s, sep), sep) == s
    decreases |s|
  {
    if |s| > 0 {
      var rest := Split(s[1..], sep);
      JoinSplit(s[1..], sep);
      if s[0] == sep {
        assert Split(s, sep) == [""] + rest;
        assert ([""] + rest)[1..] == rest;
        assert s == [sep] + s[1..];
      } else {
        var parts := Split(s, sep);
        assert parts == [[s[0]] + rest[0]] + rest[1..];
        if |rest| == 1 {
          assert s == [s[0]] + s[1..];
        } else {
          assert parts[1..] == rest[1..];
          assert Join(rest, sep) == rest[0] + [sep] + Join(rest[1..], sep);
          assert s == [s[0]] + s[1..];
        }
      }
    }
  }

  /** A separator-free string splits to itself. */
  lemma {:induction false} SplitNoSep(a: string, sep: char)
    requires sep !in a
    ensures Split(a, sep) == [a]
    decreases |a|
  {
    if |a| > 0 {
      assert sep !in a[1..];
      SplitNoSep(a[1..], sep);
      assert [a[0]] + a[1..] == a;
    }
  }

  /** Splitting peels off a separator-free head. */
  lemma {:induction false} SplitHead(a: string, sep: char, b: string)
    requires sep !in a
    ensures Split(a + [sep] + b, sep) == [a] + Split(b, sep)
    decreases |a|
  {
    var s := a + [sep] + b;
    if |a| == 0 {
      assert s[0] == sep;
      assert s[1..] == b;
    } else {
      assert sep !in a[1..];
      SplitHead(a[1..], sep, b);
      assert s[1..] == a[1..] + [sep] + b;
      assert [a[0]] + a[1..] == a;
    }
  }

  /** Splitting a join of separator-free pieces gives the pieces back. */
  lemma {:induction false} SplitJoin(parts: seq<string>, sep: char)
    requires |parts| >= 1
    requires forall i :: 0 <= i < |parts| ==> sep !in parts[i]
    ensures Split(Join(parts, sep), sep) == parts
    decreases |parts|
  {
    if |parts| == 1 {
      SplitNoSep(parts[0], sep);
    } else {
      SplitJoin(parts[1..], sep);
      SplitHead(parts[0], sep, Join(parts[1..], sep));
      assert [parts[0]] + parts[1..] == parts;
    }
  }

  /** path.Split: everything up to and including the last '/', and the rest. */
  function PathSplit(p: string): (r: (string, string))
    ensures r.0 + r.1 == p
    ensures '/' !in r.1
    ensures r.0 == "" || r.0[|r.0| - 1] == '/'
  {
    var i := LastIndex(p, "/");
    var dir := p[..i + 1];
    var file := p[i + 1..];
    assert dir + file == p;
    assert forall j :: 0 <= j < |file| ==> file[j] != '/' by {
      forall j | 0 <= j < |file|
        ensures file[j] != '/'
      {
        assert !OccursAt(p, "/", i + 1 + j);
        assert p[i + 1 + j..i + 2 + j] == [file[j]];
      }
    }
    if i >= 0 then
      assert OccursAt(p, "/", i);
      assert p[i..i + 1] == [p[i]];
      (dir, file)
    else
      (dir, file)
  }

  /** The run of leading digits removed, as the rune loop of the aliaser does. */
  function DropLeadingDigits(w: string): (r: string)
    ensures |r| <= |w| && r == w[|w| - |r|..]
    ensures forall i :: 0 <= i < |w| - |r| ==> IsDigit(w[i])
    ensures r == "" || !IsDigit(r[0])
    decreases |w|
  {
    if |w| > 0 && IsDigit(w[0]) then DropLeadingDigits(w[1..]) else w
  }

  /** strings.Map replacing every rune that is not a letter, digit or '_' by '_'. */
  function Sanitize(w: string): (r: string)
    ensures |r| == |w|
    ensures forall i :: 0 <= i < |r| ==> IsWordChar(r[i])
    ensures forall i :: 0 <= i < |w| && IsWordChar(w[i]) ==> r[i] == w[i]
    ensures forall i :: 0 <= i < |w| && !IsWordChar(w[i]) ==> r[i] == '_'
    decreases |w|
  {
    if |w| == 0 then ""
    else [if IsWordChar(w[0]) then w[0] else '_'] + Sanitize(w[1..])
  }
}

=== FILE: stringsets.dfy ===
/** The string set: a Go map from string to the empty struct, here a
    `set<string>`. Insert adds every item in turn and hands the set back. */
module StringSets {
  /** The set after inserting `items` one after another, the way the loop
      of Insert does. */
  function Inserted(str: set<string>, items: seq<string>): (r: set<string>)
    ensures forall x :: x in r <==> x in str || x in items
    decreases |items|
  {
    if |items| == 0 then str
    else Inserted(str + {items[0]}, items[1..])
  }

  /** Insert: every item is in the result, nothing else is added, and what
      was there stays. */
  method Insert(str: set<string>, items: seq<string>) returns (r: set<string>)
    ensures r == Inserted(str, items)
    ensures forall x :: x in r <==> x in str || x in items
    ensures str <= r
  {
    r := str;
    var i := 0;
    while i < |items|
      invariant 0 <= i <= |items|
      invariant Inserted(r, items[i..]) == Inserted(str, items)
    {
      assert items[i..][1..] == items[i + 1..];
      r := r + {items[i]};
      i := i + 1;
    }
  }

  /** NewString: a fresh set holding exactly the items. */
  method NewString(items: seq<string>) returns (r: set<string>)
    ensures forall x :: x in r <==> x in items
  {
    r := Insert({}, items);
  }

  /** Has: whether the item was inserted. */
  function Has(str: set<string>, item: string): (b: bool)
    ensures b <==> item in str
  {
    item in str
  }

  /** Inserting the same items a second time changes nothing. */
  lemma InsertIdempotent(str: set<string>, items: seq<string>)
    ensures Inserted(Inserted(str, items), items) == Inserted(str, items)
  {
  }

  /** Inserting `a` then `b` is inserting `a + b`: the loop over a
      concatenation continues where the first part stopped. */
  lemma InsertConcat(str: set<string>, a: seq<string>, b: seq<string>)
    ensures Inserted(str, a + b) == Inserted(Inserted(str, a), b)
  {
  }

  /** Has answers for the inserted items and the items already there, and
      for nothing else. */
  lemma HasInserted(str: set<string>, items: seq<string>, x: string)
    ensures Has(Inserted(str, items), x) <==> Has(str, x) || x in items
  {
  }
}

=== FILE: tagdecoder.dfy ===
/** Decoding of a struct field's tag literal, as handleFieldTag does it.

    The literal loses its first and last character (the backquotes), is split
    on every space into tokens, and each token is split on every colon: the
    key is the first piece, the value is the second piece without its first
    and last character (the quotes). Whatever follows a second colon is lost.
 */
module TagDecoder {
  import opened Strings
  import opened AstxSpec

  /** The tag literal without its delimiting characters. */
  function Inner(raw: string): string
    requires |raw| >= 2
  {
    raw[1..|raw| - 1]
  }

  /** A token the decoder can index without going out of range. */
  predicate TokenDecodable(tv: string) {
    var kvs := Split(tv, ':');
    |kvs| >= 2 && |kvs[1]| >= 2
  }

  /** A tag literal the decoder handles without panicking. */
  predicate TagDecodable(raw: string) {
    |raw| >= 2 &&
    var tokens := Split(Inner(raw), ' ');
    forall i :: 0 <= i < |tokens| ==> TokenDecodable(tokens[i])
  }

  /** One token decoded; every tag keeps the whole literal as its name, the
      key is the text before the first colon, and the value is the text
      between the first and the second colon less its first and last
      character. */
  function DecodeToken(raw: string, tv: string): (t: Tag)
    requires TokenDecodable(tv)
    ensures t.name == raw
    ensures var kvs := Split(tv, ':');
      && t.key == kvs[0]
      && [kvs[1][0]] + t.value + [kvs[1][|kvs[1]| - 1]] == kvs[1]
  {
    var kvs := Split(tv, ':');
    Tag(raw, kvs[0], kvs[1][1..|kvs[1]| - 1])
  }

  function DecodeTokens(raw: string, tokens: seq<string>): (tags: seq<Tag>)
    requires forall i :: 0 <= i < |tokens| ==> TokenDecodable(tokens[i])
    ensures |tags| == |tokens|
    ensures forall i :: 0 <= i < |tokens| ==> tags[i] == DecodeToken(raw, tokens[i])
  {
    if |tokens| == 0 then []
    else [DecodeToken(raw, tokens[0])] + DecodeTokens(raw, tokens[1..])
  }

  /** The one TagSpec a tagged field gets: one Tag per space-separated token,
      in order, each keyed by the text before the token's first colon. */
  function DecodeTag(raw: string, fieldName: string): (ts: TagSpec)
    requires TagDecodable(raw)
    ensures ts.field == fieldName
    ensures |ts.tags| == |Split(Inner(raw), ' ')|
    ensures forall i :: 0 <= i < |ts.tags| ==>
              var kvs := Split(Split(Inner(raw), ' ')[i], ':');
              && ts.tags[i].name == raw
              && ts.tags[i].key == kvs[0]
              && [kvs[1][0]] + ts.tags[i].value + [kvs[1][|kvs[1]| - 1]] == kvs[1]
  {
    TagSpec(fieldName, DecodeTokens(raw, Split(Inner(raw), ' ')))
  }

  /** The (key, value) pairs of decoded tags. */
  function Pairs(tags: seq<Tag>): (ps: seq<(string, string)>)
    ensures |ps| == |tags|
    ensures forall i :: 0 <= i < |tags| ==> ps[i] == (tags[i].key, tags[i].value)
  {
    if |tags| == 0 then [] else [(tags[0].key, tags[0].value)] + Pairs(tags[1..])
  }

  /** `key:"value"` */
  function EncodePair(p: (string, string)): string {
    p.0 + ":" + "\"" + p.1 + "\""
  }

  function EncodeTokens(pairs: seq<(string, string)>): (tokens: seq<string>)
    ensures |tokens| == |pairs|
    ensures forall i :: 0 <= i < |pairs| ==> tokens[i] == EncodePair(pairs[i])
  {
    if |pairs| == 0 then [] else [EncodePair(pairs[0])] + EncodeTokens(pairs[1..])
  }

  /** A tag literal written the conventional way: backquoted, space-separated
      `key:"value"` tokens. */
  function EncodeTag(pairs: seq<(string, string)>): string
    requires |pairs| >= 1
  {
    "`" + Join(EncodeTokens(pairs), ' ') + "`"
  }

  /** Keys and values the decoder cannot misread. */
  predicate PlainPair(p: (string, string)) {
    ' ' !in p.0 && ':' !in p.0 && ' ' !in p.1 && ':' !in p.1
  }

  /** A conventional token decodes to its own key and value. */
  lemma DecodeEncodedToken(raw: string, p: (string, string))
    requires PlainPair(p)
    ensures TokenDecodable(EncodePair(p))
    ensures DecodeToken(raw, EncodePair(p)) == Tag(raw, p.0, p.1)
  {
    var quoted := "\"" + p.1 + "\"";
    assert EncodePair(p) == Join([p.0, quoted], ':');
    assert ':' !in quoted;
    SplitJoin([p.0, quoted], ':');
    assert quoted[1..|quoted| - 1] == p.1;
  }

  /** Decoding a conventionally written tag gives back its pairs, in order. */
  lemma DecodeEncode(pairs: seq<(string, string)>, fieldName: string)
    requires |pairs| >= 1
    requires forall i :: 0 <= i < |pairs| ==> PlainPair(pairs[i])
    ensures TagDecodable(EncodeTag(pairs))
    ensures Pairs(DecodeTag(EncodeTag(pairs), fieldName).tags) == pairs
  {
    var raw := EncodeTag(pairs);
    var tokens := EncodeTokens(pairs);
    assert Inner(raw) == Join(tokens, ' ');
    forall i | 0 <= i < |tokens|
      ensures ' ' !in tokens[i]
    {
      assert tokens[i] == pairs[i].0 + ":" + "\"" + pairs[i].1 + "\"";
    }
    SplitJoin(tokens, ' ');
    forall i | 0 <= i < |tokens|
      ensures TokenDecodable(tokens[i])
      ensures DecodeToken(raw, tokens[i]) == Tag(raw, pairs[i].0, pairs[i].1)
    {
      DecodeEncodedToken(raw, pairs[i]);
    }
    var got := Pairs(DecodeTag(raw, fieldName).tags);
    assert |got| == |pairs|;
    forall i | 0 <= i < |pairs|
      ensures got[i] == pairs[i]
    {
    }
  }

  /** The documented example: `json:"name" xml:"n"`. */
  lemma JsonXmlExample()
    ensures TagDecodable("`json:\"name\" xml:\"n\"`")
    ensures Pairs(DecodeTag("`json:\"name\" xml:\"n\"`", "Name").tags) == [("json", "name"), ("xml", "n")]
  {
    var pairs := [("json", "name"), ("xml", "n")];
    assert EncodeTag(pairs) == "`json:\"name\" xml:\"n\"`";
    DecodeEncode(pairs, "Name");
  }

  /** A value containing a colon is cut at it: in `url:"a:b"` the second
      colon-separated piece is `"a`, and dropping its first and last
      character leaves the empty value. */
  lemma ColonInValueTruncates()
    ensures TagDecodable("`url:\"a:b\"`")
    ensures Pairs(DecodeTag("`url:\"a:b\"`", "U").tags) == [("url", "")]
  {
    var raw := "`url:\"a:b\"`";
    var pieces := ["url", "\"a", "b\""];
    var tv := Join(pieces, ':');
    assert tv == "url:\"a:b\"";
    assert Inner(raw) == tv;
    assert forall i :: 0 <= i < |tv| ==> tv[i] != ' ';
    SplitNoSep(tv, ' ');
    SplitJoin(pieces, ':');
    assert Split(tv, ':') == pieces;
    var t := DecodeToken(raw, tv);
    assert pieces[1][1..|pieces[1]| - 1] == "";
    assert t == Tag(raw, "url", "");
    var tokens := Split(Inner(raw), ' ');
    assert tokens == [tv];
    assert DecodeTokens(raw, tokens) == [t];
  }
}

=== FILE: typeresolver.dfy ===
/** Resolution of a type expression to its textual form and pointer flag.

    The extractor has three slightly different copies of this switch: one for
    struct fields, one for parameters and one for results. Each is modelled
    as written and related to the four canonical shapes. */
module TypeResolver {
  import opened GoAst
  import opened Strings

  /** The resolved type text and whether the expression was a pointer. */
  datatype Resolved = Resolved(text: string, ptr: bool)

  /** A supported shape: `T`, `*T`, `pkg.T` or `*pkg.T`. */
  datatype Shape = Shape(ptr: bool, qualifier: Option<string>, name: string)

  /** The supported shape an expression has, if any. */
  function ShapeOf(e: Expr): Option<Shape> {
    match e
    case Ident(n) => Some(Shape(false, None, n))
    case Selector(Ident(p), s) => Some(Shape(false, Some(p), s))
    case Star(Ident(n)) => Some(Shape(true, None, n))
    case Star(Selector(Ident(p), s)) => Some(Shape(true, Some(p), s))
    case _ => None
  }

  /** The canonical text of a shape: an optional `*`, an optional `pkg.`, the name. */
  function Render(sh: Shape): Resolved {
    var qualified := match sh.qualifier
      case Some(q) => q + "." + sh.name
      case None => sh.name;
    Resolved((if sh.ptr then "*" else "") + qualified, sh.ptr)
  }

  /** Text that could be a Go identifier as far as the canonical form cares. */
  predicate IsName(s: string) {
    |s| > 0 && '.' !in s && '*' !in s
  }

  predicate WellNamed(sh: Shape) {
    IsName(sh.name) && (sh.qualifier.Some? ==> IsName(sh.qualifier.value))
  }

  /** Reads a canonical type text back into its shape. */
  function ReadShape(text: string): (sh: Option<Shape>)
    ensures sh.Some? ==> WellNamed(sh.value)
  {
    var ptr := |text| > 0 && text[0] == '*';
    var body := if ptr then text[1..] else text;
    var parts := Split(body, '.');
    if |parts| == 1 && IsName(parts[0]) then
      Some(Shape(ptr, None, parts[0]))
    else if |parts| == 2 && IsName(parts[0]) && IsName(parts[1]) then
      Some(Shape(ptr, Some(parts[0]), parts[1]))
    else
      None
  }

  /** The base name of `pkg.Sel`; the qualifier is kept only when the base is
      an identifier. */
  function SelectorText(x: Expr, sel: string): string {
    match x
    case Ident(p) => p + "." + sel
    case _ => sel
  }

  /** The switch of handleFieldType. */
  function FieldType(e: Expr): (r: Resolved)
    ensures ShapeOf(e).Some? ==> r == Render(ShapeOf(e).value)
    ensures r.ptr <==> e.Star?
    ensures ShapeOf(e).None? && !e.Selector? && !(e.Star? && e.x.Selector?) ==> r.text == ""
    ensures e.Selector? && !e.x.Ident? ==> r.text == e.sel
    ensures e.Star? && e.x.Selector? && !e.x.x.Ident? ==> r.text == "*" + e.x.sel
  {
    match e
    case Ident(n) => Resolved(n, false)
    case Star(x) =>
      var text := match x
        case Selector(base, sel) => "*" + SelectorText(base, sel)
        case Ident(n) => "*" + n
        case _ => "";
      Resolved(text, true)
    case Selector(base, sel) => Resolved(SelectorText(base, sel), false)
    case Other => Resolved("", false)
  }

  /** The switch of handleParams: as for fields, except that a pointer to an
      identifier loses its `*`. */
  function ParamType(e: Expr): (r: Resolved)
    ensures (e.Star? && e.x.Ident?) ==> r == Resolved(e.x.name, true)
    ensures !(e.Star? && e.x.Ident?) ==> r == FieldType(e)
  {
    match e
    case Ident(n) => Resolved(n, false)
    case Star(x) =>
      var text := match x
        case Ident(n) => n
        case Selector(base, sel) => "*" + SelectorText(base, sel)
        case _ => "";
      Resolved(text, true)
    case Selector(base, sel) => Resolved(SelectorText(base, sel), false)
    case Other => Resolved("", false)
  }

  /** The switch of handleResults: as for fields, except that there is no
      case for a plain qualified name. */
  function ReturnType(e: Expr): (r: Resolved)
    ensures e.Selector? ==> r == Resolved("", false)
    ensures !e.Selector? ==> r == FieldType(e)
  {
    match e
    case Ident(n) => Resolved(n, false)
    case Star(x) =>
      var text := match x
        case Ident(n) => "*" + n
        case Selector(base, sel) => "*" + SelectorText(base, sel)
        case _ => "";
      Resolved(text, true)
    case _ => Resolved("", false)
  }

  /** Reading a rendered shape back recovers it. */
  lemma RenderRead(sh: Shape)
    requires WellNamed(sh)
    ensures ReadShape(Render(sh).text) == Some(sh)
  {
    var text := Render(sh).text;
    var body := if sh.ptr then text[1..] else text;
    match sh.qualifier {
      case None =>
        assert body == sh.name;
        SplitNoSep(sh.name, '.');
      case Some(q) =>
        assert body == q + "." + sh.name;
        assert Join([q, sh.name], '.') == q + "." + sh.name;
        SplitJoin([q, sh.name], '.');
    }
    if !sh.ptr && |text| > 0 {
      assert text[0] != '*' by {
        match sh.qualifier {
          case None => assert text[0] == sh.name[0];
          case Some(q) => assert text[0] == q[0];
        }
      }
    }
  }

  /** Field type resolution round-trips on the supported shapes: the text read
      back gives the expression's shape, and the flag says pointer. */
  lemma FieldTypeRoundTrip(e: Expr)
    requires ShapeOf(e).Some? && WellNamed(ShapeOf(e).value)
    ensures ReadShape(FieldType(e).text) == ShapeOf(e)
    ensures FieldType(e).ptr == ShapeOf(e).value.ptr
  {
    RenderRead(ShapeOf(e).value);
  }

  /** The canonical table: `int`, `*int`, `time.Time`, `*time.Time`. */
  lemma CanonicalExamples()
    ensures FieldType(Ident("int")) == Resolved("int", false)
    ensures FieldType(Star(Ident("int"))) == Resolved("*int", true)
    ensures FieldType(Selector(Ident("time"), "Time")) == Resolved("time.Time", false)
    ensures FieldType(Star(Selector(Ident("time"), "Time"))) == Resolved("*time.Time", true)
  {
    IntExample();
    PointerIntExample();
    TimeExample();
    PointerTimeExample();
  }

  lemma IntExample()
    ensures FieldType(Ident("int")) == Resolved("int", false)
  {
    PlainIdent("int");
  }

  lemma PointerIntExample()
    ensures FieldType(Star(Ident("int"))) == Resolved("*int", true)
  {
    PointerIdent("int");
    assert "*" + "int" == "*int";
  }

  lemma TimeExample()
    ensures FieldType(Selector(Ident("time"), "Time")) == Resolved("time.Time", false)
  {
    Qualified("time", "Time");
    assert "time" + "." + "Time" == "time.Time";
  }

  lemma PointerTimeExample()
    ensures FieldType(Star(Selector(Ident("time"), "Time"))) == Resolved("*time.Time", true)
  {
    PointerQualified("time", "Time");
    assert "*" + ("time" + "." + "Time") == "*time.Time";
  }

  /** An identifier resolves to its own name. */
  lemma PlainIdent(n: string)
    ensures FieldType(Ident(n)) == Resolved(n, false)
  {
  }

  /** A pointer to an identifier resolves to `*` and the name. */
  lemma PointerIdent(n: string)
    ensures FieldType(Star(Ident(n))) == Resolved("*" + n, true)
  {
  }

  /** A qualified identifier keeps its package. */
  lemma Qualified(p: string, sel: string)
    ensures FieldType(Selector(Ident(p), sel)) == Resolved(p + "." + sel, false)
  {
  }

  /** A pointer to a qualified identifier keeps `*` and its package. */
  lemma PointerQualified(p: string, sel: string)
    ensures FieldType(Star(Selector(Ident(p), sel))) == Resolved("*" + (p + "." + sel), true)
  {
  }

  /** The corner cases: a selector on a non-identifier base keeps only the
      selected name, an unsupported pointee leaves the text empty, and the
      parameter and result switches differ from the field switch. */
  lemma CornerExamples()
    ensures FieldType(Selector(Star(Ident("x")), "T")) == Resolved("T", false)
    ensures FieldType(Star(Other)) == Resolved("", true)
    ensures ParamType(Star(Ident("int"))) == Resolved("int", true)
    ensures ReturnType(Selector(Ident("time"), "Time")) == Resolved("", false)
  {
  }
}
